=== FILE: README.md ===
# bhyve command synthesis

This project models libvirt's bhyve command builder
(`src/bhyve/bhyve_command.c`). The builder turns a parsed and validated
domain definition into argument vectors for external programs:

- the `bhyve` hypervisor process itself;
- the `bhyvectl --destroy` teardown command;
- the loader run before `bhyve`. This is `bhyveload`, `grub-bhyve` with a
  generated device map, or an arbitrary custom bootloader.

The builder also chooses the boot disk for `bhyveload`.

The model is written in Dafny and is purely functional:

- A `DomainDef` record holds everything the builder reads.
- A `Caps` record holds the capability bits of the installed binaries.
- Every builder returns `Result` (`Ok(args)` or `Fail(error)`). An `Error`
  constructor names a kind of failure, not a call site. The same message
  raised in several places shares one constructor. For example,
  `DiskDeviceUnsupported` covers lines 219, 284 and 320;
  `ConsoleTypeUnsupported` covers lines 144 and 911; and
  `MultipleBootDevices` covers lines 941 and 997. `NoUsableDisk`,
  `MissingArgument` and `VncPortAcquireFailed` are failures that the code
  returns without reporting an error of its own.
- The C code writes two values back into the definition: a NIC's interface
  name and the VNC port. Here the builders return them as explicit outputs
  (`NetOutcome`, `GraphicsOutcome`, `DevicesOutcome`, `Built`).
- Host interaction is a `Host` parameter. `DryRun` touches nothing. `Live`
  answers the tap-device calls for each NIC and hands out the VNC port from
  the port pool.

Modules:

- `Strings`: decimal formatting (`%d`, `%llu`), `strstr`, and splitting and
  joining on one separator (`virStringSplit`).
- `Domain`: the entities, the errors, `AppendAll` (the "stop at the first
  failing builder" loop), and `VIR_DIV_UP` of the memory size.
- `Devices`: the per-device builders: NIC, console, AHCI, USB, virtio disk,
  controllers, framebuffer and sound.
- `BhyveCmd`: the `bhyve` composer and the teardown command.
- `Boot`: the custom loader, bhyveload, grub-bhyve, boot-disk selection and
  the loader dispatch.

Integer widths are written out where they change behaviour:

- The CPU topology product is an unsigned 32-bit multiplication and wraps.
- `VIR_DIV_UP` on the 64-bit memory size wraps for the last 1023 KiB values.
- A NULL `%s` argument prints as `(null)`.

The model follows the code on boot-disk selection, even where prose
descriptions of it read differently:

- When no `<boot dev>` is given and no disk has a boot priority, the code
  returns the LAST usable disk. It does not return the first one, despite
  the comment at lines 1003-1004 (`NativeFallbackPicksLast`).
- Two disks carrying a boot priority are an error on this path. Neither
  one is chosen by lowest index.
- The grub path does follow "lowest boot index, first among equals". A disk
  whose boot index is `UINT_MAX` can never win there
  (`GrubIgnoresMaximalPriority`).

Other quirks of the code are kept:

- The console accepts port 2, which gives `com3`.
- Sound maps the backend's input device to `play=` and its output device to
  `rec=`.
- Graphics without a video device, or a video device without graphics,
  emits nothing.
- When the device map is requested, grub-bhyve produces it even if the
  console check then fails.

## Model

| member | source | states |
|---|---|---|
| Strings.ParseNatToString | src/bhyve/bhyve_command.c:586 | Decimal formatting loses nothing: the digits `%d` prints read back as the number. |
| Strings.NatToStringInjective | src/bhyve/bhyve_command.c:586 | Two counts that print the same are equal. |
| Strings.ContainsIffOccurs | src/bhyve/bhyve_command.c:1025 | The `strstr` test succeeds exactly when the needle occurs at some position of the haystack. |
| Strings.JoinSplit | src/bhyve/bhyve_command.c:733 | Splitting the bootloader argument string on blanks and rejoining gives back the string. |
| Strings.SplitJoin | src/bhyve/bhyve_command.c:733 | Splitting a blank-joined list of blank-free tokens gives back exactly those tokens. The list must not be the single empty token `[""]`, because that one joins to the empty string, which splits to no tokens. |
| Domain.EmittedCons | src/bhyve/bhyve_command.c:657-692 | Reading the device loops front to back gives the same tokens as the reference order: one builder's tokens, then the rest's. |
| Domain.AppendAll | src/bhyve/bhyve_command.c:657-692 | A run of builders succeeds iff every builder does. A failure carries the error of the first failing builder. On success the tokens are every builder's tokens in builder order. |
| Domain.MemoryMiB | src/bhyve/bhyve_command.c:590-592 | Gives the least MiB count covering the KiB size, exactly the quotient for whole MiB, while `kib + 1023` does not wrap. |
| Domain.MemoryWrapsAtTop | src/bhyve/bhyve_command.c:590-592 | The 64-bit `VIR_DIV_UP` wraps to 0 MiB for every size above 2^64 - 1024 KiB. |
| Devices.NicModelName | src/bhyve/bhyve_command.c:56-71 | virtio always gives `virtio-net`. e1000 gives `e1000` with the e1000 capability and its own error without it. Any other model is rejected with the unsupported-model error. |
| Devices.BuildNetArg | src/bhyve/bhyve_command.c:43-131 | A NIC builds iff its model is supported, it is bridged, and every host tap call succeeds. The token carries the slot, the model, the tap and the MAC. A dry run keeps or generates the `vnet%d` name and puts `tap0` in the token. A live run stores the name left by tap creation, and the real device name appears only in the token. A non-bridge failure clears the interface name. |
| Devices.NetDryRunIfname | src/bhyve/bhyve_command.c:82-87 | Under a dry run, a missing or generated-prefix name becomes `vnet%d`; any other name is kept. |
| Devices.NetDryRunIdempotent | src/bhyve/bhyve_command.c:82-87 | Building a dry-run NIC a second time from the definition the first build left gives the same tokens and name. |
| Devices.NetTokenFields | src/bhyve/bhyve_command.c:117-120 | The `-s` token splits on commas into exactly the slot, the model, the tap and `mac=`. |
| Devices.BuildConsoleArg | src/bhyve/bhyve_command.c:134-161 | With no serial there are no tokens. Otherwise it succeeds iff the first serial is an nmdm device on a port of at most 2. A non-nmdm serial and a higher port each fail with their own error. Success emits `-l com<port+1>,<path>`. |
| Devices.ConsoleNamesPort | src/bhyve/bhyve_command.c:149-158 | For ports 0 to 2 the console value is `com`, one digit that reads back as port + 1, a comma, and the nmdm path. |
| Devices.ConsoleAcceptsThirdPort | src/bhyve/bhyve_command.c:149-158 | The port check lets port 2 through, so `com3` is emitted although the comment allows only two ports. |
| Devices.AhciFragment | src/bhyve/bhyve_command.c:205-222 | A fragment starts with `,` iff the 32-slot capability is present, and with `-` otherwise. Then comes `cd` for a CD-ROM and `hd` otherwise, then `:` (32-slot form) or `,`, then the source path. |
| Devices.AhciFragments | src/bhyve/bhyve_command.c:173-224 | The scan succeeds iff every SATA disk on this controller is file-backed, resolves, is not a sourceless CD-ROM, and is a disk or a CD-ROM. A floppy or LUN fails with the unsupported-device error. A failure reports the first offending disk's error. Success gives one fragment per bound disk, in order. |
| Devices.BuildAhciArg | src/bhyve/bhyve_command.c:164-232 | The controller builds iff every SATA disk bound to it is file-backed, resolves, is not a sourceless CD-ROM, and is a disk or a CD-ROM (a floppy or LUN is refused). |
| Devices.AhciOneFragmentPerDisk | src/bhyve/bhyve_command.c:173-231 | A successful controller emits `-s <slot>:0,ahci` plus one fragment per bound disk, in disk order. Each fragment uses the 32-slot form exactly when the binary supports it. |
| Devices.AhciCdromNeedsSource | src/bhyve/bhyve_command.c:197-203 | A CD-ROM without a source on the controller makes the controller fail. |
| Devices.InputError | src/bhyve/bhyve_command.c:242-257 | Reports an error iff some input is not a USB tablet. |
| Devices.BuildUsbArg | src/bhyve/bhyve_command.c:235-271 | The xHCI controller builds iff the inputs are exactly one USB tablet, and then emits `-s <slot>:<func>,xhci,tablet`. |
| Devices.BuildVirtioDiskArg | src/bhyve/bhyve_command.c:274-304 | A virtio disk builds iff its source resolves, it is a plain disk, and it is file- or volume-backed. It emits `-s <slot>:0,virtio-blk,<source>`. |
| Devices.BuildDiskArg | src/bhyve/bhyve_command.c:307-325 | SATA disks emit nothing here; virtio disks go to the virtio builder; any other bus fails with the same unsupported-device error. |
| Devices.BuildControllerArg | src/bhyve/bhyve_command.c:328-370 | Only a USB or ISA controller bumps its counter. A second USB or ISA controller fails. A PCI controller must be the root and emits nothing. ISA emits `-s <slot>:0,lpc`. Other types emit nothing. SATA is exactly the AHCI builder, and the first USB controller is exactly the xHCI builder. |
| Devices.ControllerArgsTokens | src/bhyve/bhyve_command.c:658-662 | A controller list that builds emits exactly the tokens each controller would emit on its own, in list order. The counters only turn a controller into a failure; they never change its tokens. |
| Devices.ControllersBuildIfValid | src/bhyve/bhyve_command.c:335-367 | Conversely, a list builds when every controller builds on its own and there is at most one USB and at most one ISA controller. |
| Devices.CountedAtMostOnce | src/bhyve/bhyve_command.c:348-363 | When the controller list builds, at most one USB and at most one ISA controller is present, and none once a counter is already taken. |
| Devices.ControllersEachValid | src/bhyve/bhyve_command.c:335-357 | When the controller list builds, every PCI controller is the root, and a USB controller implies exactly one USB tablet. |
| Devices.ControllersBuildOnlyIfValid | src/bhyve/bhyve_command.c:335-367 | A controller list that builds has at most one USB and one ISA controller, only root PCI controllers, and a lone USB tablet when USB is present. |
| Devices.ControllerFailureIsFatal | src/bhyve/bhyve_command.c:658-662 | Any controller that fails on its own makes the whole controller list fail. |
| Devices.FbufTokenFields | src/bhyve/bhyve_command.c:412-458 | Cutting the framebuffer token at commas gives `<slot>:<func>`, then `fbuf`, then `tcp=<host>:<port>` with the listen host and the port. This needs a comma-free listen address. That field is the one `ListenEndpointRoundTrip` reads back. |
| Devices.ListenEndpointRoundTrip | src/bhyve/bhyve_command.c:438-458 | The `tcp=<host>:<port>` value reads back. The last colon separates the port, and unbracketing the host gives the configured address. |
| Devices.BuildGraphicsArg | src/bhyve/bhyve_command.c:373-482 | The framebuffer builds iff the domain boots UEFI with the fbuf capability, the device is VNC with at least one listen whose first listen is an address or network listen, no password and a fixed port in 5900..65535, and, for autoport on a live host, a port is available. The acquired port is written back. The token is `-s` plus the fbuf option string. |
| Devices.BuildSoundArg | src/bhyve/bhyve_command.c:485-537 | Sound builds iff HDA is supported and the model is ICH7. It emits `-s <slot>:<func>,hda` plus the backend parameters. |
| Devices.SoundDirectionsSwapped | src/bhyve/bhyve_command.c:510-519 | The backend's input device is emitted as `play=` and its output device as `rec=`. |
| BhyveCmd.CpuArg | src/bhyve/bhyve_command.c:557-587 | Without a topology the token is the vCPU count. With a topology it fails on dies other than 1, on a 32-bit product mismatch, or without the capability. On success it is `cpus=<n>,sockets=..,cores=..,threads=..`. |
| BhyveCmd.TopologyCheckExact | src/bhyve/bhyve_command.c:565-587 | When the real product fits in 32 bits, the check accepts exactly the topologies whose product is the vCPU count. |
| BhyveCmd.TopologyProductWraps | src/bhyve/bhyve_command.c:565 | Two sockets of 2^31 + 1 cores pass the check for 2 vCPUs, because the unsigned 32-bit multiplication wraps. |
| BhyveCmd.TopologyTokenRoundTrip | src/bhyve/bhyve_command.c:574-578 | The topology token decodes back to the vCPU count, sockets, cores and threads. |
| BhyveCmd.ClockArgs | src/bhyve/bhyve_command.c:607-626 | A clock is accepted iff it is local time, or UTC with the RTC-UTC capability. Only UTC emits `-u`. |
| BhyveCmd.BootromArgs | src/bhyve/bhyve_command.c:644-655 | A firmware loader without a bootloader needs the LPC bootrom capability, and then emits `-l bootrom,<loader>`; otherwise nothing is emitted. |
| BhyveCmd.FeatureFlags | src/bhyve/bhyve_command.c:594-605 | `-S`, `-A`, `-I` and `-w` appear exactly when memory locking, ACPI, APIC, and ignored unknown MSRs are asked for. |
| BhyveCmd.FeatureFlagsOrder | src/bhyve/bhyve_command.c:594-605 | The flags are exactly those of `-S -A -I -w` whose setting is on, kept in that order. There are at most four and none repeats. |
| BhyveCmd.GlobalArgs | src/bhyve/bhyve_command.c:557-655 | The global section builds iff the vCPU, clock and bootrom parts do. It starts `-c <cpu> -m <MiB>`. Each optional flag appears exactly when its setting asks for it. The section ends with the host bridge, followed by `-l bootrom,<loader>` exactly when a bootrom is wanted. |
| BhyveCmd.GlobalArgsMiddle | src/bhyve/bhyve_command.c:594-655 | Between `-c`/`-m` and the host bridge, the global section holds exactly the feature flags followed by the clock part. |
| BhyveCmd.BuildNetArgs | src/bhyve/bhyve_command.c:663-666 | NICs build iff each NIC does. Only interface names change in the definition. Every NIC up to the first failing one gets the name its build left; a failing build leaves a cleared name, or the old one when the model check failed. NICs after a failure keep their names. The tokens are every NIC's tokens in NIC order. |
| BhyveCmd.NetsIfnameStep | src/bhyve/bhyve_command.c:663-666 | After a NIC that builds, the names the rest of the loop leaves are those the loop from the next NIC leaves. |
| BhyveCmd.NetsFailIfnames | src/bhyve/bhyve_command.c:663-666 | A failing NIC stops the loop with its own build's name and the later NICs' names untouched. |
| BhyveCmd.NetsOkStep | src/bhyve/bhyve_command.c:663-666 | One successful NIC followed by the rest of the loop keeps the NIC loop's contract. The interface name written back for one NIC does not change what the later NICs emit. |
| BhyveCmd.DiskArgs | src/bhyve/bhyve_command.c:667-670 | The disk section builds iff every disk does, and it emits every disk's tokens in disk order. |
| BhyveCmd.GraphicsSection | src/bhyve/bhyve_command.c:672-682 | It emits nothing unless both graphics and video are present. It fails unless there is exactly one of each. With more than one of either it fails with the graphics list untouched. With exactly one of each, the section's tokens and written-back port are exactly the framebuffer builder's. Only ports change in the definition. |
| BhyveCmd.SoundArgs | src/bhyve/bhyve_command.c:684-689 | The sound section builds iff every sound device does, so any sound needs HDA support. It emits every sound device's tokens in order. |
| BhyveCmd.DeviceArgs | src/bhyve/bhyve_command.c:657-692 | The device section builds iff controllers, NICs, disks, graphics, sounds and console each build. Its tokens are theirs, in that order. The NICs written back are those the NIC loop left, once the controllers build. The graphics written back are those the graphics section left, once controllers, NICs and disks build. Nothing else in the definition changes. |
| BhyveCmd.BuildBhyveCmd | src/bhyve/bhyve_command.c:540-713 | The command runs `bhyve` and exists iff the global and device sections build. It starts with the global section and ends with the passthrough arguments and then the domain name. When the global section builds, the definition written back is the device section's (NIC names and VNC ports). Otherwise it is returned unchanged. |
| BhyveCmd.BhyveCmdLayout | src/bhyve/bhyve_command.c:540-713 | A built command is exactly the global section, then the device section, then the passthrough arguments, then the domain name. |
| BhyveCmd.BhyveCmdHead | src/bhyve/bhyve_command.c:557-592 | A built command starts `-c <cpu> -m <MiB>`. |
| BhyveCmd.BhyveCmdHostBridge | src/bhyve/bhyve_command.c:639-642 | A built command always carries the host bridge in slot 0. |
| BhyveCmd.NicFailureIsFatal | src/bhyve/bhyve_command.c:663-666 | A NIC that fails leaves no command. |
| BhyveCmd.DiskFailureIsFatal | src/bhyve/bhyve_command.c:667-670 | A disk that fails leaves no command. |
| BhyveCmd.SoundFailureIsFatal | src/bhyve/bhyve_command.c:684-689 | A sound device that fails leaves no command. |
| BhyveCmd.ControllerFailureLeavesNoCommand | src/bhyve/bhyve_command.c:658-662 | A controller that fails leaves no command. |
| BhyveCmd.SecondControllerLeavesNoCommand | src/bhyve/bhyve_command.c:348-363 | Two USB or two ISA controllers leave no command. |
| BhyveCmd.BuildDestroyCmd | src/bhyve/bhyve_command.c:716-725 | Teardown is `bhyvectl --destroy --vm=<name>`. |
| Boot.BootloaderArgs | src/bhyve/bhyve_command.c:728-736 | The loader arguments are blank-free tokens that join back to the configured string. There are none exactly when the string is empty. |
| Boot.BootloaderArgsUnique | src/bhyve/bhyve_command.c:728-736 | Those properties determine the tokens. Any list of blank-free tokens, other than the single empty token, is exactly what its blank-joined string is cut into. |
| Boot.BuildCustomLoaderCmd | src/bhyve/bhyve_command.c:768-784 | A custom loader builds iff its arguments are given. It runs the loader with blank-free tokens that join back to the argument string, and with none for an empty string. |
| Boot.BuildBhyveloadCmd | src/bhyve/bhyve_command.c:739-765 | Without loader arguments, bhyveload gets `-m <MiB> -d <boot disk source> <name>`, and a missing source is an error. The `-m` value is the memory token. With arguments, it takes the blank-free tokens that join back to the argument string. |
| Boot.FirstUsable | src/bhyve/bhyve_command.c:962-970 | Finds the first usable disk of the requested device class, or reports that there is none. |
| Boot.GetBootDisk | src/bhyve/bhyve_command.c:927-1010 | Fails on no disks, several `<boot dev>`, or an unsupported one. One `<boot dev>` selects the first usable disk of that class, or fails. Any disk returned is usable. |
| Boot.NativeScanMeaning | src/bhyve/bhyve_command.c:984-1006 | The native scan equals its reference meaning: an error when two usable disks have a boot priority, else the prioritised one, else the last usable one. |
| Boot.GetBootDiskNative | src/bhyve/bhyve_command.c:979-1006 | Without `<boot dev>`, the chosen disk is exactly the reference choice. |
| Boot.NativeFallbackPicksLast | src/bhyve/bhyve_command.c:984-1006 | With two usable disks and no priorities, the second one is returned. |
| Boot.ScanGrubUserdef | src/bhyve/bhyve_command.c:837-848 | The grub scan's explicit choice is the first disk of least boot index among usable disks with a nonzero index below `UINT_MAX`. |
| Boot.ScanGrubFirsts | src/bhyve/bhyve_command.c:850-860 | Without an explicit choice, the grub scan's CD and HDD are the first usable CD-ROM and disk. |
| Boot.GrubSelectionMeaning | src/bhyve/bhyve_command.c:837-861 | The explicit choice is absent iff no disk is a candidate; otherwise it is the first least candidate. Without it, CD and HDD are the first usable ones. |
| Boot.DeviceLine | src/bhyve/bhyve_command.c:809-818 | A device-map line starts `(cd) ` or `(hd0) ` according to the device. The disk's source path follows, and a newline ends the line. |
| Boot.BuildGrubCmd | src/bhyve/bhyve_command.c:821-924 | With loader arguments this is the custom loader and no map. Otherwise the map is produced iff requested. The command fails only for a non-nmdm serial console under the console capability. It is `--root <cd or hd0,msdos1> --device-map <file> --memory <MiB>`, then optionally `--cons-dev <path>`, then the name. |
| Boot.GrubDeviceMapMeaning | src/bhyve/bhyve_command.c:866-894 | When the map is asked for, it lists the explicit choice alone, or the HDD then the CD; otherwise there is none. Whether or not the map is asked for, `--root` is `cd` exactly when the chosen device is a CD-ROM, or, with no explicit choice, exactly when there is a usable CD-ROM. |
| Boot.GrubPrioritisedDiskScenario | src/bhyve/bhyve_command.c:844-893 | A prioritised disk beside an unprioritised CD-ROM gives a map with only `(hd0)` and root `hd0,msdos1`. |
| Boot.GrubIgnoresMaximalPriority | src/bhyve/bhyve_command.c:828-848 | A boot index equal to `UINT_MAX` never makes a disk the explicit choice. |
| Boot.BuildLoadCmd | src/bhyve/bhyve_command.c:1013-1031 | No bootloader means bhyveload on exactly the disk the boot-disk selection returns, with a selection failure propagated. A bootloader containing `grub-bhyve` means grub; anything else is a custom loader. Only grub can produce a map, and only when asked. |
| Boot.GrubDetectedAnywhere | src/bhyve/bhyve_command.c:1024-1025 | Grub is chosen whenever `grub-bhyve` occurs anywhere in the bootloader path. |
| Boot.MemoryTokenMeaning | src/bhyve/bhyve_command.c:590-592 | The memory token parses back to the least MiB count covering the size. |
| Boot.LoaderMemoryAgrees | src/bhyve/bhyve_command.c:749-751 | bhyveload's `-m` value and grub-bhyve's `--memory` value equal the `bhyve -m` token. |

## Left out

- Logging (`VIR_DEBUG`, `VIR_INFO`, `VIR_WARN`), freeing, and the C ownership of strings and commands: they do not affect the argument vectors.
- `virCommand` itself: `vircommand.c` is not part of this model. A command is a program plus a sequence of arguments. A NULL argument to `virCommandAddArg` (the bhyveload boot disk without a source) becomes `MissingArgument`.
- The binary paths come from `virFindFileInPath` and are named by constants (`bhyve`, `bhyvectl`, `bhyveload`).
- The caller's `devicesmap_out == NULL` case is a boolean `wantMap`. The device-map file name is an input.
- MAC formatting, `virDomainDiskTranslateSourcePool`, the VGA mode string of the video driver, and the audio backend lookup are inputs of the model. They are a formatted `mac`, a `resolves` flag plus the translated `source`, `vgaconf`, and the `audio` field.
- Tap creation, interface lookup and link-up are answered by the `Host` oracle, indexed by NIC position. The VNC port pool is a single optional port. A failure to mark a fixed port used only warns in the source and is not modelled.
- Bootloader arguments with quoting: the source splits on blanks only, and so does the model.
- `switch` defaults for enum values outside their range (an unknown listen type or audio type) cannot be written with closed datatypes. Only the named cases are modelled.
- Validation done before this file runs (`virDomainDefGetVcpusTopology` and the parser's checks) is not part of this model. A topology is taken as given.
- BhyveCmd.CpuArg: prints the vCPU count and the sockets, cores and threads with `%d`, so a value above `INT_MAX` would print as a negative number in C. The model prints the unsigned value.
- Devices.FbufTokenFields: needs a listen address without commas. An address holding a comma would cut the `tcp=` field in two; IP addresses and host names have none.

=== FILE: bhyve_cmd.dfy ===
/**
 The main composer `virBhyveProcessBuildBhyveCmd` and the teardown command
 `virBhyveProcessBuildDestroyCmd`.
 */
module BhyveCmd {
  import opened Wrappers
  import opened Strings
  import opened Domain
  import opened Devices

  const BhyveBinary: string := "bhyve"
  const BhyvectlBinary: string := "bhyvectl"

  /* ---------------- vCPUs (557-587) ---------------- */

  /** A topology is used when the definition has a CPU element with a non-zero socket count. */
  predicate TopologyRequested(def: DomainDef) {
    def.cpu.Some? && def.cpu.value.sockets != 0
  }

  /** `sockets * cores * threads` in unsigned 32-bit arithmetic. */
  function TopologyProduct(cpu: CpuDef): uint32 {
    (cpu.sockets * cpu.cores * cpu.threads) % 0x1_0000_0000
  }

  /** The `-c` value with topology: `cpus=N,sockets=S,cores=C,threads=T`. */
  function TopologyToken(n: nat, sockets: nat, cores: nat, threads: nat): string {
    Join(["cpus=" + NatToString(n), "sockets=" + NatToString(sockets),
          "cores=" + NatToString(cores), "threads=" + NatToString(threads)], ',')
  }

  /** The value of the `-c` option. */
  function CpuArg(def: DomainDef, caps: Caps): (r: Result<string>)
    ensures !TopologyRequested(def) ==> r == Ok(NatToString(def.vcpus))
    ensures TopologyRequested(def) ==>
              (r.Ok? <==> def.cpu.value.dies == 1 && def.vcpus == TopologyProduct(def.cpu.value) && caps.cpuTopology)
    ensures TopologyRequested(def) && def.cpu.value.dies != 1 ==> r == Fail(DiesUnsupported)
    ensures TopologyRequested(def) && r.Ok? ==>
              r.value == TopologyToken(def.vcpus, def.cpu.value.sockets, def.cpu.value.cores, def.cpu.value.threads)
  {
    if TopologyRequested(def) then
      var cpu := def.cpu.value;
      if cpu.dies != 1 then Fail(DiesUnsupported)
      else if def.vcpus != TopologyProduct(cpu) then Fail(TopologyMismatch)
      else if !caps.cpuTopology then Fail(TopologyUnsupported)
      else Ok(TopologyToken(def.vcpus, cpu.sockets, cpu.cores, cpu.threads))
    else Ok(NatToString(def.vcpus))
  }

  /** When the product fits in 32 bits the check is exactly `vcpus == sockets * cores * threads`. */
  lemma TopologyCheckExact(def: DomainDef, caps: Caps)
    requires TopologyRequested(def)
    requires def.cpu.value.sockets * def.cpu.value.cores * def.cpu.value.threads < 0x1_0000_0000
    ensures CpuArg(def, caps).Ok? <==>
              def.cpu.value.dies == 1 && caps.cpuTopology &&
              def.vcpus == def.cpu.value.sockets * def.cpu.value.cores * def.cpu.value.threads
  {
    var cpu := def.cpu.value;
    ProductFits(cpu.sockets, cpu.cores, cpu.threads);
  }

  lemma ProductFits(a: nat, b: nat, c: nat)
    requires a * b * c < 0x1_0000_0000
    ensures (a * b * c) % 0x1_0000_0000 == a * b * c
  {
    var ab := a * b;
    assert 0 <= ab;
    assert 0 <= ab * c;
  }

  /**
   The 32-bit product wraps around: 2 sockets of 2^31 + 1 cores pass the
   check for 2 vCPUs. (Domain validation, which is not part of this model,
   rejects such topologies before this code runs.)
   */
  lemma TopologyProductWraps(def: DomainDef, caps: Caps)
    requires def.vcpus == 2 && caps.cpuTopology
    requires def.cpu == Some(CpuDef(2, 1, 0x8000_0001, 1))
    ensures CpuArg(def, caps).Ok?
  {
  }

  /** Reads `<key><digits>`. */
  function FieldValue(field: string, key: string): Option<nat> {
    if key <= field then ParseNat(field[|key|..]) else None
  }

  /** Reads a topology token back into its four numbers. */
  function DecodeTopology(token: string): Option<(nat, nat, nat, nat)> {
    var fields := Split(token, ',');
    if |fields| != 4 then None
    else
      match (FieldValue(fields[0], "cpus="), FieldValue(fields[1], "sockets="),
             FieldValue(fields[2], "cores="), FieldValue(fields[3], "threads="))
      case (Some(n), Some(s), Some(c), Some(t)) => Some((n, s, c, t))
      case _ => None
  }

  lemma FieldRoundTrip(key: string, n: nat)
    ensures FieldValue(key + NatToString(n), key) == Some(n)
    ensures ',' !in key + NatToString(n) <==> ',' !in key
  {
    assert (key + NatToString(n))[|key|..] == NatToString(n);
    ParseNatToString(n);
    IntToStringFree(n, ',');
  }

  /** The topology token loses nothing: it reads back as the four numbers. */
  lemma TopologyTokenRoundTrip(n: nat, sockets: nat, cores: nat, threads: nat)
    ensures DecodeTopology(TopologyToken(n, sockets, cores, threads)) == Some((n, sockets, cores, threads))
  {
    var fields := ["cpus=" + NatToString(n), "sockets=" + NatToString(sockets),
                   "cores=" + NatToString(cores), "threads=" + NatToString(threads)];
    FieldRoundTrip("cpus=", n);
    FieldRoundTrip("sockets=", sockets);
    FieldRoundTrip("cores=", cores);
    FieldRoundTrip("threads=", threads);
    SplitJoin(fields, ',');
  }

  /* ---------------- global flags (589-655) ---------------- */

  predicate ClockSupported(clock: ClockOffset, caps: Caps) {
    clock == LocalTime || (clock == Utc && caps.rtcUtc)
  }

  /** The bootrom is passed when there is no bootloader but a firmware path. */
  predicate WantsBootrom(os: Os) {
    os.bootloader.None? && os.loader.Some?
  }

  const HostBridge: seq<string> := ["-H", "-P", "-s", "0:0,hostbridge"]

  function Flag(on: bool, flag: string): seq<string> {
    if on then [flag] else []
  }

  function ClockArgs(clock: ClockOffset, caps: Caps): (r: Result<seq<string>>)
    ensures r.Ok? <==> ClockSupported(clock, caps)
    ensures r.Ok? ==> r.value == Flag(clock == Utc, "-u")
    ensures clock !in {LocalTime, Utc} ==> r == Fail(ClockOffsetUnsupported(clock))
  {
    match clock
    case LocalTime => Ok([])
    case Utc => if caps.rtcUtc then Ok(["-u"]) else Fail(UtcClockUnsupported)
    case _ => Fail(ClockOffsetUnsupported(clock))
  }

  function BootromArgs(os: Os, caps: Caps): (r: Result<seq<string>>)
    ensures r.Ok? <==> (WantsBootrom(os) ==> caps.lpcBootrom)
    ensures r.Ok? && !WantsBootrom(os) ==> r.value == []
    ensures r.Ok? && WantsBootrom(os) ==> r.value == ["-l", "bootrom," + os.loader.value]
  {
    if WantsBootrom(os) then
      if caps.lpcBootrom then Ok(["-l", "bootrom," + os.loader.value]) else Fail(BootromUnsupported)
    else Ok([])
  }

  predicate HostBridgeAt(args: seq<string>, k: int) {
    0 <= k && k + 4 <= |args| && args[k..k + 4] == HostBridge
  }

  /** Everything before the devices: `-c`, `-m`, the feature flags, the clock, the host bridge, the bootrom. */
  function GlobalArgs(def: DomainDef, caps: Caps): (r: Result<seq<string>>)
    ensures r.Ok? <==>
              CpuArg(def, caps).Ok? && ClockSupported(def.clock, caps) && (WantsBootrom(def.os) ==> caps.lpcBootrom)
    ensures r.Ok? ==> |r.value| >= 4 && r.value[..4] == ["-c", CpuArg(def, caps).value, "-m", MemoryToken(def)]
    ensures r.Ok? ==> ("-S" in r.value <==> def.memLocked)
    ensures r.Ok? ==> ("-A" in r.value <==> def.acpi == On)
    ensures r.Ok? ==> ("-I" in r.value <==> def.apic == On)
    ensures r.Ok? ==> ("-w" in r.value <==> def.msrs == On && def.msrsUnknownIgnore)
    ensures r.Ok? ==> ("-u" in r.value <==> def.clock == Utc)
    ensures r.Ok? ==> ("-l" in r.value <==> WantsBootrom(def.os))
    ensures r.Ok? ==> exists k :: HostBridgeAt(r.value, k)
    ensures r.Ok? && !WantsBootrom(def.os) ==> HostBridgeAt(r.value, |r.value| - 4)
    ensures r.Ok? && WantsBootrom(def.os) ==>
              && HostBridgeAt(r.value, |r.value| - 6)
              && r.value[|r.value| - 2..] == ["-l", "bootrom," + def.os.loader.value]
  {
    var cpu :- CpuArg(def, caps);
    var clock :- ClockArgs(def.clock, caps);
    var bootrom :- BootromArgs(def.os, caps);
    var head := ["-c", cpu, "-m", MemoryToken(def)];
    HeadHasNoFlag(def, caps, cpu);
    GlobalArgsFacts(head, FeatureFlags(def), clock, bootrom);
    Ok(head + FeatureFlags(def) + clock + HostBridge + bootrom)
  }

  /**
   Between `-c`/`-m` and the host bridge the global section holds exactly
   the feature flags followed by the clock part.
   */
  lemma GlobalArgsMiddle(def: DomainDef, caps: Caps)
    requires GlobalArgs(def, caps).Ok?
    ensures var args, bootrom := GlobalArgs(def, caps).value, BootromArgs(def.os, caps).value;
            |args| >= 8 + |bootrom| && args[4..|args| - 4 - |bootrom|] == FeatureFlags(def) + ClockArgs(def.clock, caps).value
  {
    assert CpuArg(def, caps).Ok? && ClockArgs(def.clock, caps).Ok? && BootromArgs(def.os, caps).Ok?;
    var head := ["-c", CpuArg(def, caps).value, "-m", MemoryToken(def)];
    var flags, clock, bootrom := FeatureFlags(def), ClockArgs(def.clock, caps).value, BootromArgs(def.os, caps).value;
    MiddleOfFive(GlobalArgs(def, caps).value, head, flags, clock, HostBridge, bootrom);
  }

  /** In `a + b + c + d + e` with four-element `a` and `d`, the part between them is `b + c`. */
  lemma MiddleOfFive<T>(s: seq<T>, a: seq<T>, b: seq<T>, c: seq<T>, d: seq<T>, e: seq<T>)
    requires s == a + b + c + d + e
    requires |a| == 4 && |d| == 4
    ensures |s| >= 8 + |e| && s[4..|s| - 4 - |e|] == b + c
  {
    assert s == a + (b + c) + (d + e);
  }

  /** The six optional flags the global section may hold. */
  predicate NoOptionalFlag(part: seq<string>) {
    "-S" !in part && "-A" !in part && "-I" !in part && "-w" !in part && "-u" !in part && "-l" !in part
  }

  lemma HeadHasNoFlag(def: DomainDef, caps: Caps, cpu: string)
    requires CpuArg(def, caps) == Ok(cpu)
    ensures NoOptionalFlag(["-c", cpu, "-m", MemoryToken(def)])
  {
    assert cpu[0] != '-' by {
      if TopologyRequested(def) {
        assert cpu[0] == 'c';
      } else {
        assert IsDigit(cpu[0]);
      }
    }
    assert IsDigit(MemoryToken(def)[0]);
  }

  /** The feature flags in the order the composer adds them. */
  const FlagOrder: seq<string> := ["-S", "-A", "-I", "-w"]

  /** The names whose switch is on, in the order the names are listed. */
  function Selected(names: seq<string>, on: seq<bool>): seq<string>
    requires |names| == |on|
  {
    if |names| == 0 then []
    else (if on[0] then [names[0]] else []) + Selected(names[1..], on[1..])
  }

  predicate NoRepeats(s: seq<string>) {
    forall i, j :: 0 <= i < j < |s| ==> s[i] != s[j]
  }

  lemma FlagOrderNoRepeats()
    ensures NoRepeats(FlagOrder)
  {
    forall i, j | 0 <= i < j < |FlagOrder| ensures FlagOrder[i] != FlagOrder[j] {
      assert FlagOrder[i][1] != FlagOrder[j][1];
    }
  }

  /** A selection keeps only listed names, at most once each when the list has no repeats. */
  lemma {:induction false} SelectedNoRepeats(names: seq<string>, on: seq<bool>)
    requires |names| == |on|
    ensures |Selected(names, on)| <= |names|
    ensures forall x :: x in Selected(names, on) ==> x in names
    ensures NoRepeats(names) ==> NoRepeats(Selected(names, on))
  {
    if |names| > 0 {
      SelectedNoRepeats(names[1..], on[1..]);
      var rest := Selected(names[1..], on[1..]);
      if NoRepeats(names) && on[0] {
        assert names[0] !in names[1..];
        assert Selected(names, on) == [names[0]] + rest;
      }
    }
  }

  /** Selecting among four names is adding each one whose switch is on. */
  lemma SelectedFour(names: seq<string>, on: seq<bool>)
    requires |names| == |on| == 4
    ensures Selected(names, on) == Flag(on[0], names[0]) + Flag(on[1], names[1]) + Flag(on[2], names[2]) + Flag(on[3], names[3])
  {
    var n3, o3 := names[3..], on[3..];
    assert Selected(n3, o3) == Flag(on[3], names[3]) + Selected(n3[1..], o3[1..]);
    assert Selected(n3[1..], o3[1..]) == [];
    var n2, o2 := names[2..], on[2..];
    assert n2[1..] == n3 && o2[1..] == o3;
    var n1, o1 := names[1..], on[1..];
    assert n1[1..] == n2 && o1[1..] == o2;
    assert Selected(names, on) == Flag(on[0], names[0]) + Selected(n1, o1);
  }

  /**
   The feature flags: each present exactly when its setting asks for it.
   */
  function FeatureFlags(def: DomainDef): (flags: seq<string>)
    ensures "-S" in flags <==> def.memLocked
    ensures "-A" in flags <==> def.acpi == On
    ensures "-I" in flags <==> def.apic == On
    ensures "-w" in flags <==> def.msrs == On && def.msrsUnknownIgnore
    ensures "-u" !in flags && "-l" !in flags
  {
    Flag(def.memLocked, "-S") + Flag(def.acpi == On, "-A") + Flag(def.apic == On, "-I")
    + Flag(def.msrs == On && def.msrsUnknownIgnore, "-w")
  }

  /**
   Together the feature flags are exactly the flags of `FlagOrder` whose
   settings are on, in that order and once each.
   */
  lemma FeatureFlagsOrder(def: DomainDef)
    ensures FeatureFlags(def) == Selected(FlagOrder, [def.memLocked, def.acpi == On, def.apic == On,
                                                      def.msrs == On && def.msrsUnknownIgnore])
    ensures |FeatureFlags(def)| <= 4 && NoRepeats(FeatureFlags(def))
  {
    FlagOrderNoRepeats();
    SelectedNoRepeats(FlagOrder, [def.memLocked, def.acpi == On, def.apic == On, def.msrs == On && def.msrsUnknownIgnore]);
    SelectedFour(FlagOrder, [def.memLocked, def.acpi == On, def.apic == On, def.msrs == On && def.msrsUnknownIgnore]);
  }

  /**
   Where the optional flags of the global section come from: the feature
   flags, the clock part (`-u` or nothing) and the bootrom part (`-l` and
   its value, or nothing).
   */
  lemma GlobalArgsFacts(head: seq<string>, flags: seq<string>, clock: seq<string>, bootrom: seq<string>)
    requires NoOptionalFlag(head)
    requires "-u" !in flags && "-l" !in flags
    requires clock == [] || clock == ["-u"]
    requires bootrom == [] || (|bootrom| == 2 && bootrom[0] == "-l" && |bootrom[1]| > 0 && bootrom[1][0] == 'b')
    ensures var args := head + flags + clock + HostBridge + bootrom;
            && ("-S" in args <==> "-S" in flags)
            && ("-A" in args <==> "-A" in flags)
            && ("-I" in args <==> "-I" in flags)
            && ("-w" in args <==> "-w" in flags)
            && ("-u" in args <==> clock != [])
            && ("-l" in args <==> bootrom != [])
            && HostBridgeAt(args, |head| + |flags| + |clock|)
            && |args| == |head| + |flags| + |clock| + 4 + |bootrom|
            && args[|args| - |bootrom|..] == bootrom
  {
    var args := head + flags + clock + HostBridge + bootrom;
    assert NoOptionalFlag(HostBridge);
    if bootrom != [] {
      assert bootrom == ["-l", bootrom[1]];
    }
    var k := |head| + |flags| + |clock|;
    assert args[k..k + 4] == HostBridge;
  }

  /* ---------------- device sections (657-704) ---------------- */

  /** The NIC tokens and the NIC list with the interface names the builders left. */
  datatype NetsOutcome = NetsOutcome(args: Result<seq<string>>, nets: seq<Net>)

  /** What each NIC's builder yields, NIC by NIC. */
  function NetResults(nets: seq<Net>, caps: Caps, host: Host): (rs: seq<Result<seq<string>>>)
    ensures |rs| == |nets|
  {
    seq(|nets|, k requires 0 <= k < |nets| => BuildNetArg(nets[k], caps, host, k).args)
  }

  /** Changing NIC `i` leaves the results of the NICs after it alone. */
  lemma NetResultsAfter(nets: seq<Net>, updated: seq<Net>, caps: Caps, host: Host, i: nat)
    requires i < |nets| == |updated|
    requires forall k :: i < k < |nets| ==> updated[k] == nets[k]
    ensures NetResults(updated, caps, host)[i + 1..] == NetResults(nets, caps, host)[i + 1..]
  {
    var a := NetResults(updated, caps, host)[i + 1..];
    var b := NetResults(nets, caps, host)[i + 1..];
    assert forall k :: 0 <= k < |a| ==> a[k] == BuildNetArg(nets[i + 1 + k], caps, host, i + 1 + k).args == b[k];
  }

  /** The tokens from NIC `i` on are NIC `i`'s followed by those after it, whatever NIC `i` was updated to. */
  lemma NetTokensStep(nets: seq<Net>, updated: seq<Net>, caps: Caps, host: Host, i: nat)
    requires i < |nets| == |updated|
    requires forall k :: i < k < |nets| ==> updated[k] == nets[k]
    ensures Emitted(NetResults(nets, caps, host)[i..])
            == Tokens(BuildNetArg(nets[i], caps, host, i).args) + Emitted(NetResults(updated, caps, host)[i + 1..])
  {
    var all := NetResults(nets, caps, host);
    NetResultsAfter(nets, updated, caps, host, i);
    assert all[i..] == [all[i]] + all[i + 1..];
    EmittedCons(all[i], all[i + 1..]);
  }

  /** NICs `i` up to, but not including, `k` all build. */
  predicate NetsBuildBetween(nets: seq<Net>, caps: Caps, host: Host, i: nat, k: nat)
    requires k <= |nets|
  {
    forall j :: i <= j < k ==> BuildNetArg(nets[j], caps, host, j).args.Ok?
  }

  /**
   The interface name NIC `k` carries after the loop from NIC `i`: what its
   own build left when every NIC before it built (a failing build leaves a
   cleared name, or the old one when the model check failed), and its old
   name when the loop stopped earlier.
   */
  function LoopIfname(nets: seq<Net>, caps: Caps, host: Host, i: nat, k: nat): Option<string>
    requires k < |nets|
  {
    if NetsBuildBetween(nets, caps, host, i, k) then BuildNetArg(nets[k], caps, host, k).ifname else nets[k].ifname
  }

  /** The NIC loop from NIC `i` on; it emits every NIC's tokens in NIC order. */
  function BuildNetArgs(nets: seq<Net>, caps: Caps, host: Host, i: nat): (r: NetsOutcome)
    requires i <= |nets|
    ensures |r.nets| == |nets|
    ensures forall k :: 0 <= k < |nets| ==> r.nets[k] == nets[k].(ifname := r.nets[k].ifname)
    ensures forall k :: 0 <= k < i ==> r.nets[k] == nets[k]
    ensures r.args.Ok? <==> forall k :: i <= k < |nets| ==> BuildNetArg(nets[k], caps, host, k).args.Ok?
    ensures forall k :: i <= k < |nets| ==> r.nets[k].ifname == LoopIfname(nets, caps, host, i, k)
    ensures r.args.Ok? ==> r.args.value == Emitted(NetResults(nets, caps, host)[i..])
    decreases |nets| - i
  {
    if i == |nets| then NetsOutcome(Ok([]), nets)
    else
      var o := BuildNetArg(nets[i], caps, host, i);
      var updated := nets[i := nets[i].(ifname := o.ifname)];
      if o.args.Fail? then
        NetsFailIfnames(nets, caps, host, i, o, updated);
        NetsOutcome(Fail(o.args.error), updated)
      else
        var rest := BuildNetArgs(updated, caps, host, i + 1);
        assert forall k :: i < k < |nets| ==> updated[k] == nets[k];
        NetsIfnameStep(nets, updated, caps, host, i, o, rest.nets);
        if rest.args.Fail? then NetsOutcome(Fail(rest.args.error), rest.nets)
        else
          NetsOkStep(nets, updated, caps, host, i, o, rest);
          NetsOutcome(Ok(o.args.value + rest.args.value), rest.nets)
  }

  /** One successful round of the NIC loop: NIC `i`'s outcome followed by the loop over the rest. */
  lemma NetsOkStep(nets: seq<Net>, updated: seq<Net>, caps: Caps, host: Host, i: nat, o: NetOutcome, rest: NetsOutcome)
    requires i < |nets| == |updated|
    requires o == BuildNetArg(nets[i], caps, host, i) && o.args.Ok?
    requires updated == nets[i := nets[i].(ifname := o.ifname)]
    requires |rest.nets| == |updated|
    requires forall k :: 0 <= k < |updated| ==> rest.nets[k] == updated[k].(ifname := rest.nets[k].ifname)
    requires forall k :: 0 <= k < i + 1 ==> rest.nets[k] == updated[k]
    requires rest.args.Ok?
    requires forall k :: i + 1 <= k < |updated| ==> BuildNetArg(updated[k], caps, host, k).args.Ok?
    requires rest.args.value == Emitted(NetResults(updated, caps, host)[i + 1..])
    ensures forall k :: 0 <= k < |nets| ==> rest.nets[k] == nets[k].(ifname := rest.nets[k].ifname)
    ensures forall k :: 0 <= k < i ==> rest.nets[k] == nets[k]
    ensures forall k :: i <= k < |nets| ==> BuildNetArg(nets[k], caps, host, k).args.Ok?
    ensures o.args.value + rest.args.value == Emitted(NetResults(nets, caps, host)[i..])
  {
    assert forall k :: i < k < |nets| ==> updated[k] == nets[k];
    NetTokensStep(nets, updated, caps, host, i);
  }

  /** A NIC that fails stops the loop: it keeps what its build left and the later NICs keep their names. */
  lemma NetsFailIfnames(nets: seq<Net>, caps: Caps, host: Host, i: nat, o: NetOutcome, updated: seq<Net>)
    requires i < |nets|
    requires o == BuildNetArg(nets[i], caps, host, i) && o.args.Fail?
    requires updated == nets[i := nets[i].(ifname := o.ifname)]
    ensures forall k :: i <= k < |nets| ==> updated[k].ifname == LoopIfname(nets, caps, host, i, k)
  {
    forall k | i <= k < |nets| ensures updated[k].ifname == LoopIfname(nets, caps, host, i, k) {
      if k > i {
        assert !NetsBuildBetween(nets, caps, host, i, k);
      }
    }
  }

  /** After a NIC that builds, the names the loop leaves from NIC `i` are those it leaves from NIC `i + 1`. */
  lemma NetsIfnameStep(nets: seq<Net>, updated: seq<Net>, caps: Caps, host: Host, i: nat, o: NetOutcome, after: seq<Net>)
    requires i < |nets|
    requires o == BuildNetArg(nets[i], caps, host, i) && o.args.Ok?
    requires updated == nets[i := nets[i].(ifname := o.ifname)]
    requires |after| == |nets|
    requires after[i] == updated[i]
    requires forall k :: i + 1 <= k < |nets| ==> after[k].ifname == LoopIfname(updated, caps, host, i + 1, k)
    ensures forall k :: i <= k < |nets| ==> after[k].ifname == LoopIfname(nets, caps, host, i, k)
  {
    forall k | i + 1 <= k < |nets| ensures after[k].ifname == LoopIfname(nets, caps, host, i, k) {
      assert updated[k] == nets[k];
      assert NetsBuildBetween(nets, caps, host, i, k) <==> NetsBuildBetween(updated, caps, host, i + 1, k) by {
        assert forall j :: i < j < k ==> updated[j] == nets[j];
      }
    }
  }

  /** What each disk's builder yields, disk by disk. */
  function DiskResults(disks: seq<Disk>): (rs: seq<Result<seq<string>>>)
    ensures |rs| == |disks| && forall k :: 0 <= k < |disks| ==> rs[k] == BuildDiskArg(disks[k])
  {
    seq(|disks|, k requires 0 <= k < |disks| => BuildDiskArg(disks[k]))
  }

  /** The disk loop: every disk's tokens in disk order, or the first failure. */
  function DiskArgs(disks: seq<Disk>): (r: Result<seq<string>>)
    ensures r.Ok? <==> forall k :: 0 <= k < |disks| ==> BuildDiskArg(disks[k]).Ok?
    ensures r.Ok? ==> r.value == Emitted(DiskResults(disks))
  {
    AppendAll(DiskResults(disks))
  }

  /** What each sound device's builder yields, device by device. */
  function SoundResults(sounds: seq<Sound>, caps: Caps): (rs: seq<Result<seq<string>>>)
    ensures |rs| == |sounds| && forall k :: 0 <= k < |sounds| ==> rs[k] == BuildSoundArg(sounds[k], caps)
  {
    seq(|sounds|, k requires 0 <= k < |sounds| => BuildSoundArg(sounds[k], caps))
  }

  /** The sound loop: every device's tokens in order, or the first failure. */
  function SoundArgs(sounds: seq<Sound>, caps: Caps): (r: Result<seq<string>>)
    ensures r.Ok? <==> forall k :: 0 <= k < |sounds| ==> BuildSoundArg(sounds[k], caps).Ok?
    ensures r.Ok? && |sounds| > 0 ==> caps.soundHda
    ensures r.Ok? ==> r.value == Emitted(SoundResults(sounds, caps))
  {
    AppendAll(SoundResults(sounds, caps))
  }

  /** The framebuffer tokens and the graphics list with the port the builder left. */
  datatype GraphicsSectionOutcome = GraphicsSectionOutcome(args: Result<seq<string>>, graphics: seq<Graphics>)

  /**
   A graphics device is built only with a video device to pair it with; one
   of either without the other is skipped without an error.
   */
  function GraphicsSection(def: DomainDef, caps: Caps, host: Host): (r: GraphicsSectionOutcome)
    ensures |def.graphics| == 0 || |def.videos| == 0 ==> r == GraphicsSectionOutcome(Ok([]), def.graphics)
    ensures |def.graphics| > 0 && |def.videos| > 0 && !(|def.graphics| == 1 && |def.videos| == 1) ==>
              r == GraphicsSectionOutcome(Fail(MultipleGraphics), def.graphics)
    ensures |def.graphics| == 1 && |def.videos| == 1 ==>
              var o := BuildGraphicsArg(def.os, def.graphics[0], def.videos[0], caps, host);
              r.args == o.args && r.graphics == [def.graphics[0].(port := o.port)]
    ensures |r.graphics| == |def.graphics|
    ensures forall k :: 0 <= k < |def.graphics| ==> r.graphics[k] == def.graphics[k].(port := r.graphics[k].port)
  {
    if |def.graphics| > 0 && |def.videos| > 0 then
      if |def.graphics| == 1 && |def.videos| == 1 then
        var o := BuildGraphicsArg(def.os, def.graphics[0], def.videos[0], caps, host);
        GraphicsSectionOutcome(o.args, [def.graphics[0].(port := o.port)])
      else GraphicsSectionOutcome(Fail(MultipleGraphics), def.graphics)
    else GraphicsSectionOutcome(Ok([]), def.graphics)
  }

  /* ---------------- the composer (539-713) ---------------- */

  /** The device tokens and the definition with the fields the device builders write back. */
  datatype DevicesOutcome = DevicesOutcome(args: Result<seq<string>>, def: DomainDef)

  /**
   The device part of the command, in the order the C code builds it:
   controllers, NICs, disks, graphics, sound, console. The first failure
   ends the build.
   */
  function DeviceArgs(def: DomainDef, caps: Caps, host: Host): (o: DevicesOutcome)
    ensures o.args.Ok? <==>
              && BuildControllerArgs(def.controllers, def.disks, def.inputs, caps, 0, 0, 0).Ok?
              && BuildNetArgs(def.nets, caps, host, 0).args.Ok?
              && DiskArgs(def.disks).Ok?
              && GraphicsSection(def, caps, host).args.Ok?
              && SoundArgs(def.sounds, caps).Ok?
              && BuildConsoleArg(def.serials).Ok?
    ensures o.args.Ok? ==>
              o.args.value == BuildControllerArgs(def.controllers, def.disks, def.inputs, caps, 0, 0, 0).value
                              + BuildNetArgs(def.nets, caps, host, 0).args.value
                              + DiskArgs(def.disks).value
                              + GraphicsSection(def, caps, host).args.value
                              + SoundArgs(def.sounds, caps).value
                              + BuildConsoleArg(def.serials).value
    ensures o.def == def.(nets := o.def.nets, graphics := o.def.graphics)
    ensures o.def.nets == if BuildControllerArgs(def.controllers, def.disks, def.inputs, caps, 0, 0, 0).Ok?
                          then BuildNetArgs(def.nets, caps, host, 0).nets else def.nets
    ensures o.def.graphics == if && BuildControllerArgs(def.controllers, def.disks, def.inputs, caps, 0, 0, 0).Ok?
                                 && BuildNetArgs(def.nets, caps, host, 0).args.Ok?
                                 && DiskArgs(def.disks).Ok?
                              then GraphicsSection(def, caps, host).graphics else def.graphics
    ensures |o.def.nets| == |def.nets| && forall k :: 0 <= k < |def.nets| ==> o.def.nets[k] == def.nets[k].(ifname := o.def.nets[k].ifname)
    ensures |o.def.graphics| == |def.graphics| &&
            forall k :: 0 <= k < |def.graphics| ==> o.def.graphics[k] == def.graphics[k].(port := o.def.graphics[k].port)
  {
    var controllers := BuildControllerArgs(def.controllers, def.disks, def.inputs, caps, 0, 0, 0);
    if controllers.Fail? then DevicesOutcome(Fail(controllers.error), def)
    else
      var nets := BuildNetArgs(def.nets, caps, host, 0);
      var def1 := def.(nets := nets.nets);
      if nets.args.Fail? then DevicesOutcome(Fail(nets.args.error), def1)
      else
        var disks := DiskArgs(def.disks);
        if disks.Fail? then DevicesOutcome(Fail(disks.error), def1)
        else
          var graphics := GraphicsSection(def, caps, host);
          var def2 := def1.(graphics := graphics.graphics);
          if graphics.args.Fail? then DevicesOutcome(Fail(graphics.args.error), def2)
          else
            var sounds := SoundArgs(def.sounds, caps);
            if sounds.Fail? then DevicesOutcome(Fail(sounds.error), def2)
            else
              var console := BuildConsoleArg(def.serials);
              if console.Fail? then DevicesOutcome(Fail(console.error), def2)
              else
                DevicesOutcome(Ok(controllers.value + nets.args.value + disks.value + graphics.args.value
                                  + sounds.value + console.value), def2)
  }

  /** A build result and the definition with the fields the builders write back. */
  datatype Built = Built(cmd: Result<Command>, def: DomainDef)

  function PassthroughArgs(def: DomainDef): seq<string> {
    if def.passthrough.Some? then def.passthrough.value else []
  }

  /** Lays the command out: global section, device tokens, passthrough arguments, domain name. */
  function Assemble(global: seq<string>, devices: seq<string>, extra: seq<string>, name: string): (args: seq<string>)
    ensures |args| == |global| + |devices| + |extra| + 1
    ensures global <= args
    ensures args[|global|..|args| - 1 - |extra|] == devices
    ensures args[|args| - 1 - |extra|..|args| - 1] == extra
    ensures args[|args| - 1] == name
  {
    var args := global + devices + extra + [name];
    assert args[|global|..|args| - 1 - |extra|] == devices;
    assert args[|args| - 1 - |extra|..|args| - 1] == extra;
    args
  }

  /** `virBhyveProcessBuildBhyveCmd`. */
  function BuildBhyveCmd(def: DomainDef, caps: Caps, host: Host): (b: Built)
    ensures b.cmd.Ok? ==> b.cmd.value.program == BhyveBinary
    ensures b.cmd.Ok? <==> GlobalArgs(def, caps).Ok? && DeviceArgs(def, caps, host).args.Ok?
    ensures b.cmd.Ok? ==> GlobalArgs(def, caps).value <= b.cmd.value.args
    ensures b.cmd.Ok? ==>
              var args := b.cmd.value.args;
              var extra := PassthroughArgs(def);
              |args| >= |extra| + 1 && args[|args| - 1] == def.name && args[|args| - 1 - |extra|..|args| - 1] == extra
    ensures b.def == def.(nets := b.def.nets, graphics := b.def.graphics)
    ensures b.def == if GlobalArgs(def, caps).Ok? then DeviceArgs(def, caps, host).def else def
    ensures |b.def.nets| == |def.nets| && forall k :: 0 <= k < |def.nets| ==> b.def.nets[k] == def.nets[k].(ifname := b.def.nets[k].ifname)
    ensures |b.def.graphics| == |def.graphics| &&
            forall k :: 0 <= k < |def.graphics| ==> b.def.graphics[k] == def.graphics[k].(port := b.def.graphics[k].port)
  {
    var global := GlobalArgs(def, caps);
    if global.Fail? then Built(Fail(global.error), def)
    else
      var devices := DeviceArgs(def, caps, host);
      if devices.args.Fail? then Built(Fail(devices.args.error), devices.def)
      else
        var args := Assemble(global.value, devices.args.value, PassthroughArgs(def), def.name);
        Built(Ok(Command(BhyveBinary, args)), devices.def)
  }

  /**
   On success the command is laid out in the order the composer adds its
   parts: the global section, the device section, the passthrough
   arguments, and the domain name.
   */
  lemma BhyveCmdLayout(def: DomainDef, caps: Caps, host: Host)
    ensures var cmd := BuildBhyveCmd(def, caps, host).cmd;
            cmd.Ok? ==>
              cmd.value.args == GlobalArgs(def, caps).value + DeviceArgs(def, caps, host).args.value
                                + PassthroughArgs(def) + [def.name]
  {
    var cmd := BuildBhyveCmd(def, caps, host).cmd;
    if cmd.Ok? {
      var global := GlobalArgs(def, caps).value;
      var devices := DeviceArgs(def, caps, host).args.value;
      assert cmd.value.args == Assemble(global, devices, PassthroughArgs(def), def.name);
    }
  }

  /** On success the command starts `-c <cpus> -m <MiB>`. */
  lemma BhyveCmdHead(def: DomainDef, caps: Caps, host: Host)
    ensures var cmd := BuildBhyveCmd(def, caps, host).cmd;
            cmd.Ok? ==>
              |cmd.value.args| >= 4 && cmd.value.args[..4] == ["-c", CpuArg(def, caps).value, "-m", MemoryToken(def)]
  {
    var cmd := BuildBhyveCmd(def, caps, host).cmd;
    if cmd.Ok? {
      PrefixKeepsShape(GlobalArgs(def, caps).value, cmd.value.args);
    }
  }

  /** On success the host bridge tokens `-H -P -s 0:0,hostbridge` appear consecutively. */
  lemma BhyveCmdHostBridge(def: DomainDef, caps: Caps, host: Host)
    ensures var cmd := BuildBhyveCmd(def, caps, host).cmd;
            cmd.Ok? ==> exists k :: HostBridgeAt(cmd.value.args, k)
  {
    var cmd := BuildBhyveCmd(def, caps, host).cmd;
    if cmd.Ok? {
      PrefixKeepsShape(GlobalArgs(def, caps).value, cmd.value.args);
    }
  }

  lemma PrefixKeepsShape(global: seq<string>, args: seq<string>)
    requires global <= args && |global| >= 4
    requires exists k :: HostBridgeAt(global, k)
    ensures args[..4] == global[..4]
    ensures exists k :: HostBridgeAt(args, k)
  {
    var k :| HostBridgeAt(global, k);
    assert args[k..k + 4] == global[k..k + 4];
    assert HostBridgeAt(args, k);
  }

  /** A NIC whose builder fails leaves no command. */
  lemma NicFailureIsFatal(def: DomainDef, caps: Caps, host: Host, k: nat)
    requires k < |def.nets|
    requires BuildNetArg(def.nets[k], caps, host, k).args.Fail?
    ensures BuildBhyveCmd(def, caps, host).cmd.Fail?
  {
    assert !BuildNetArgs(def.nets, caps, host, 0).args.Ok?;
    assert !DeviceArgs(def, caps, host).args.Ok?;
  }

  /** A disk whose builder fails leaves no command. */
  lemma DiskFailureIsFatal(def: DomainDef, caps: Caps, host: Host, k: nat)
    requires k < |def.disks|
    requires BuildDiskArg(def.disks[k]).Fail?
    ensures BuildBhyveCmd(def, caps, host).cmd.Fail?
  {
    assert DiskArgs(def.disks).Fail?;
    assert !DeviceArgs(def, caps, host).args.Ok?;
  }

  /** A sound device whose builder fails leaves no command. */
  lemma SoundFailureIsFatal(def: DomainDef, caps: Caps, host: Host, k: nat)
    requires k < |def.sounds|
    requires BuildSoundArg(def.sounds[k], caps).Fail?
    ensures BuildBhyveCmd(def, caps, host).cmd.Fail?
  {
    assert SoundArgs(def.sounds, caps).Fail?;
    assert !DeviceArgs(def, caps, host).args.Ok?;
  }

  /** A controller that fails on its own leaves no command. */
  lemma ControllerFailureLeavesNoCommand(def: DomainDef, caps: Caps, host: Host, k: nat)
    requires k < |def.controllers|
    requires BuildControllerArg(def.controllers[k], def.disks, def.inputs, caps, 0, 0).args.Fail?
    ensures BuildBhyveCmd(def, caps, host).cmd.Fail?
  {
    ControllerFailureIsFatal(def.controllers, def.disks, def.inputs, caps, 0, 0, 0, k);
  }

  /** A second USB (or ISA) controller leaves no command. */
  lemma SecondControllerLeavesNoCommand(def: DomainDef, caps: Caps, host: Host, j: nat, k: nat)
    requires j < k < |def.controllers|
    requires (IsUsb(def.controllers[j]) && IsUsb(def.controllers[k])) || (IsIsa(def.controllers[j]) && IsIsa(def.controllers[k]))
    ensures BuildBhyveCmd(def, caps, host).cmd.Fail?
  {
    if BuildControllerArgs(def.controllers, def.disks, def.inputs, caps, 0, 0, 0).Ok? {
      ControllersBuildOnlyIfValid(def.controllers, def.disks, def.inputs, caps);
    }
  }

  /* ---------------- teardown (715-725) ---------------- */

  /** `virBhyveProcessBuildDestroyCmd`: the machine name can be read back from `--vm=`. */
  function BuildDestroyCmd(def: DomainDef): (c: Command)
    ensures c.program == BhyvectlBinary && |c.args| == 2 && c.args[0] == "--destroy"
    ensures "--vm=" <= c.args[1] && c.args[1][5..] == def.name
  {
    Command(BhyvectlBinary, ["--destroy", "--vm=" + def.name])
  }
}

=== FILE: boot.dfy ===
/**
 The loader side of bhyve_command.c: the three loader strategies
 (`bhyveload`, `grub-bhyve`, a custom loader), the choice among them, and
 the two boot-disk selections they rely on.
 */
module Boot {
  import opened Wrappers
  import opened Strings
  import opened Domain
  import opened Devices

  const BhyveloadBinary: string := "bhyveload"
  const GrubMarker: string := "grub-bhyve"

  /* ---------------- loader arguments (727-736, 767-784) ---------------- */

  /** `virAppendBootloaderArgs`: the configured string cut at every single space, quotes ignored. */
  function BootloaderArgs(args: string): (r: seq<string>)
    ensures forall k :: 0 <= k < |r| ==> ' ' !in r[k]
    ensures Join(r, ' ') == args
    ensures args == "" <==> r == []
  {
    JoinSplit(args, ' ');
    Split(args, ' ')
  }

  /**
   The contract above pins the tokens down: a list of blank-free tokens is
   exactly what its blank-joined string is cut into. The one exception is
   the single empty token, which joins to the empty string, and that string
   has no tokens.
   */
  lemma BootloaderArgsUnique(tokens: seq<string>)
    requires forall k :: 0 <= k < |tokens| ==> ' ' !in tokens[k]
    requires tokens != [""]
    ensures BootloaderArgs(Join(tokens, ' ')) == tokens
  {
    SplitJoin(tokens, ' ');
  }

  /** `virBhyveProcessBuildCustomLoaderCmd`: only meaningful with explicit loader arguments. */
  function BuildCustomLoaderCmd(os: Os): (r: Result<Command>)
    requires os.bootloader.Some?
    ensures r.Ok? <==> os.bootloaderArgs.Some?
    ensures r.Fail? ==> r.error == BootloaderArgsRequired
    ensures r.Ok? ==> r.value.program == os.bootloader.value && Join(r.value.args, ' ') == os.bootloaderArgs.value
    ensures r.Ok? ==> forall k :: 0 <= k < |r.value.args| ==> ' ' !in r.value.args[k]
    ensures r.Ok? ==> (os.bootloaderArgs.value == "" <==> r.value.args == [])
  {
    if os.bootloaderArgs.None? then Fail(BootloaderArgsRequired)
    else Ok(Command(os.bootloader.value, BootloaderArgs(os.bootloaderArgs.value)))
  }

  /* ---------------- bhyveload (738-765) ---------------- */

  /**
   `virBhyveProcessBuildBhyveloadCmd` for the chosen boot disk. Without
   loader arguments it passes `-m <MiB> -d <image> <name>`; a disk without a
   source would hand a NULL argument to the command, which leaves no usable
   command.
   */
  function BuildBhyveloadCmd(def: DomainDef, disk: Disk): (r: Result<Command>)
    ensures r.Ok? ==> r.value.program == BhyveloadBinary
    ensures def.os.bootloaderArgs.Some? ==> r.Ok? && Join(r.value.args, ' ') == def.os.bootloaderArgs.value
    ensures def.os.bootloaderArgs.Some? ==>
              && (forall k :: 0 <= k < |r.value.args| ==> ' ' !in r.value.args[k])
              && (def.os.bootloaderArgs.value == "" <==> r.value.args == [])
    ensures def.os.bootloaderArgs.None? ==> (r.Ok? <==> disk.source.Some?)
    ensures def.os.bootloaderArgs.None? && r.Ok? ==>
              |r.value.args| == 5 && r.value.args[0] == "-m" && r.value.args[2] == "-d" &&
              r.value.args[1] == MemoryToken(def) &&
              r.value.args[3] == disk.source.value && r.value.args[4] == def.name
    ensures def.os.bootloaderArgs.None? && disk.source.None? ==> r == Fail(MissingArgument)
  {
    if def.os.bootloaderArgs.None? then
      if disk.source.None? then Fail(MissingArgument)
      else Ok(Command(BhyveloadBinary, ["-m", MemoryToken(def), "-d", disk.source.value, def.name]))
    else Ok(Command(BhyveloadBinary, BootloaderArgs(def.os.bootloaderArgs.value)))
  }

  /* ---------------- usable disks (786-807) ---------------- */

  /** `virBhyveUsableDisk`: the source resolves, it is a disk or CD-ROM, and it is file or volume backed. */
  predicate Usable(d: Disk) {
    d.resolves && (d.device == DiskDevice || d.device == CdromDevice) && FileBacked(d)
  }

  /** The first usable disk of class `dev` from position `i` on. */
  function FirstUsable(disks: seq<Disk>, dev: DiskDevice, i: nat): (r: Option<nat>)
    requires i <= |disks|
    ensures r.Some? ==> i <= r.value < |disks| && Usable(disks[r.value]) && disks[r.value].device == dev
    ensures r.Some? ==> forall j :: i <= j < r.value ==> !(Usable(disks[j]) && disks[j].device == dev)
    ensures r.None? ==> forall j :: i <= j < |disks| ==> !(Usable(disks[j]) && disks[j].device == dev)
    decreases |disks| - i
  {
    if i == |disks| then None
    else if Usable(disks[i]) && disks[i].device == dev then Some(i)
    else FirstUsable(disks, dev, i + 1)
  }

  /* ---------------- bhyveload boot disk (926-1010) ---------------- */

  /** The disk class a `<boot dev=…/>` entry asks for; floppy and network have none. */
  function BootClass(dev: BootDev): Option<DiskDevice> {
    match dev
    case BootCdrom => Some(CdromDevice)
    case BootDisk => Some(DiskDevice)
    case _ => None
  }

  /** A usable disk carrying a boot priority. */
  predicate Prioritised(d: Disk) {
    Usable(d) && d.bootIndex > 0
  }

  /**
   The scan used when no `<boot dev=…/>` is given. `found` is the disk with
   a boot priority seen so far and `last` the most recent usable disk: the
   C variable `first_usable_disk_index` is overwritten at every usable disk.
   */
  function NativeScan(disks: seq<Disk>, i: nat, found: Option<nat>, last: Option<nat>): (r: Result<nat>)
    requires i <= |disks|
    requires found.Some? ==> found.value < |disks| && Usable(disks[found.value])
    requires last.Some? ==> last.value < |disks| && Usable(disks[last.value])
    ensures r.Ok? ==> r.value < |disks| && Usable(disks[r.value])
    decreases |disks| - i
  {
    if i == |disks| then
      if found.Some? then Ok(found.value)
      else if last.Some? then Ok(last.value)
      else Fail(NoUsableDisk)
    else if !Usable(disks[i]) then NativeScan(disks, i + 1, found, last)
    else if disks[i].bootIndex > 0 then
      if found.None? then NativeScan(disks, i + 1, Some(i), Some(i)) else Fail(MultipleBootDevices)
    else NativeScan(disks, i + 1, found, Some(i))
  }

  /** `virBhyveGetBootDisk`, as the index of the chosen disk. */
  function GetBootDisk(def: DomainDef): (r: Result<nat>)
    ensures r.Ok? ==> r.value < |def.disks| && Usable(def.disks[r.value])
    ensures |def.disks| == 0 ==> r == Fail(NoDisks)
    ensures |def.disks| > 0 && |def.os.bootDevs| > 1 ==> r == Fail(MultipleBootDevices)
    ensures |def.disks| > 0 && |def.os.bootDevs| == 1 && BootClass(def.os.bootDevs[0]).None? ==>
              r == Fail(BootDeviceUnsupported)
    ensures |def.disks| > 0 && |def.os.bootDevs| == 1 && BootClass(def.os.bootDevs[0]).Some? ==>
              var first := FirstUsable(def.disks, BootClass(def.os.bootDevs[0]).value, 0);
              (first.Some? ==> r == Ok(first.value)) && (first.None? ==> r == Fail(BootDeviceNotFound))
  {
    if |def.disks| < 1 then Fail(NoDisks)
    else if |def.os.bootDevs| > 1 then Fail(MultipleBootDevices)
    else if |def.os.bootDevs| == 1 then
      match BootClass(def.os.bootDevs[0])
      case None => Fail(BootDeviceUnsupported)
      case Some(dev) =>
        match FirstUsable(def.disks, dev, 0)
        case Some(k) => Ok(k)
        case None => Fail(BootDeviceNotFound)
    else NativeScan(def.disks, 0, None, None)
  }

  /** Positions, from `i` on, of the disks satisfying the selection's filters, in order. */
  function UsableFrom(disks: seq<Disk>, i: nat): (r: seq<nat>)
    requires i <= |disks|
    ensures forall k :: 0 <= k < |r| ==> i <= r[k] < |disks| && Usable(disks[r[k]])
    decreases |disks| - i
  {
    if i == |disks| then []
    else (if Usable(disks[i]) then [i] else []) + UsableFrom(disks, i + 1)
  }

  function PrioritisedFrom(disks: seq<Disk>, i: nat): (r: seq<nat>)
    requires i <= |disks|
    ensures forall k :: 0 <= k < |r| ==> i <= r[k] < |disks| && Prioritised(disks[r[k]])
    decreases |disks| - i
  {
    if i == |disks| then []
    else (if Prioritised(disks[i]) then [i] else []) + PrioritisedFrom(disks, i + 1)
  }

  /**
   What the native selection means: the only prioritised usable disk; with
   none, the last usable disk; with two or more, an error.
   */
  function NativeChoice(disks: seq<Disk>): Result<nat> {
    var prioritised := PrioritisedFrom(disks, 0);
    var usable := UsableFrom(disks, 0);
    if |prioritised| > 1 then Fail(MultipleBootDevices)
    else if |prioritised| == 1 then Ok(prioritised[0])
    else if |usable| > 0 then Ok(usable[|usable| - 1])
    else Fail(NoUsableDisk)
  }

  /**
   The native scan's outcome from the disks still ahead (`p` prioritised,
   `u` usable) and what has been seen so far.
   */
  function ScanOutcome(p: seq<nat>, u: seq<nat>, found: Option<nat>, last: Option<nat>): Result<nat> {
    if (found.Some? && |p| >= 1) || |p| > 1 then Fail(MultipleBootDevices)
    else if found.Some? then Ok(found.value)
    else if |p| == 1 then Ok(p[0])
    else if |u| > 0 then Ok(u[|u| - 1])
    else if last.Some? then Ok(last.value)
    else Fail(NoUsableDisk)
  }

  lemma {:induction false} NativeScanMeaning(disks: seq<Disk>, i: nat, found: Option<nat>, last: Option<nat>)
    requires i <= |disks|
    requires found.Some? ==> found.value < |disks| && Usable(disks[found.value])
    requires last.Some? ==> last.value < |disks| && Usable(disks[last.value])
    ensures NativeScan(disks, i, found, last) == ScanOutcome(PrioritisedFrom(disks, i), UsableFrom(disks, i), found, last)
    decreases |disks| - i
  {
    if i < |disks| {
      if !Usable(disks[i]) {
        NativeScanMeaning(disks, i + 1, found, last);
        NativeStepUnusable(disks, i, found, last);
      } else if disks[i].bootIndex > 0 {
        if found.None? {
          NativeScanMeaning(disks, i + 1, Some(i), Some(i));
        }
        NativeStepPrioritised(disks, i, found, last);
      } else {
        NativeScanMeaning(disks, i + 1, found, Some(i));
        NativeStepPlain(disks, i, found, last);
      }
    }
  }

  lemma NativeStepUnusable(disks: seq<Disk>, i: nat, found: Option<nat>, last: Option<nat>)
    requires i < |disks| && !Usable(disks[i])
    requires found.Some? ==> found.value < |disks| && Usable(disks[found.value])
    requires last.Some? ==> last.value < |disks| && Usable(disks[last.value])
    requires NativeScan(disks, i + 1, found, last) ==
             ScanOutcome(PrioritisedFrom(disks, i + 1), UsableFrom(disks, i + 1), found, last)
    ensures NativeScan(disks, i, found, last) == ScanOutcome(PrioritisedFrom(disks, i), UsableFrom(disks, i), found, last)
  {
    SkipUnusable(disks, i);
  }

  /** An unusable disk adds nothing to the lists of usable and prioritised disks. */
  lemma SkipUnusable(disks: seq<Disk>, i: nat)
    requires i < |disks| && !Usable(disks[i])
    ensures PrioritisedFrom(disks, i) == PrioritisedFrom(disks, i + 1)
    ensures UsableFrom(disks, i) == UsableFrom(disks, i + 1)
  {
    assert [] + PrioritisedFrom(disks, i + 1) == PrioritisedFrom(disks, i + 1);
    assert [] + UsableFrom(disks, i + 1) == UsableFrom(disks, i + 1);
  }

  lemma NativeStepPrioritised(disks: seq<Disk>, i: nat, found: Option<nat>, last: Option<nat>)
    requires i < |disks| && Usable(disks[i]) && disks[i].bootIndex > 0
    requires found.Some? ==> found.value < |disks| && Usable(disks[found.value])
    requires last.Some? ==> last.value < |disks| && Usable(disks[last.value])
    requires found.None? ==>
               NativeScan(disks, i + 1, Some(i), Some(i)) ==
               ScanOutcome(PrioritisedFrom(disks, i + 1), UsableFrom(disks, i + 1), Some(i), Some(i))
    ensures NativeScan(disks, i, found, last) == ScanOutcome(PrioritisedFrom(disks, i), UsableFrom(disks, i), found, last)
  {
    var p' := PrioritisedFrom(disks, i + 1);
    var p := PrioritisedFrom(disks, i);
    assert p == [i] + p';
    if found.None? && |p'| == 0 {
      assert p == [i];
    }
  }

  lemma NativeStepPlain(disks: seq<Disk>, i: nat, found: Option<nat>, last: Option<nat>)
    requires i < |disks| && Usable(disks[i]) && disks[i].bootIndex == 0
    requires found.Some? ==> found.value < |disks| && Usable(disks[found.value])
    requires last.Some? ==> last.value < |disks| && Usable(disks[last.value])
    requires NativeScan(disks, i + 1, found, Some(i)) ==
             ScanOutcome(PrioritisedFrom(disks, i + 1), UsableFrom(disks, i + 1), found, Some(i))
    ensures NativeScan(disks, i, found, last) == ScanOutcome(PrioritisedFrom(disks, i), UsableFrom(disks, i), found, last)
  {
    KeepPlain(disks, i);
    ScanOutcomeRemembersLast(PrioritisedFrom(disks, i + 1), UsableFrom(disks, i + 1), found, i, last);
  }

  /** A usable disk without priority is usable but not prioritised. */
  lemma KeepPlain(disks: seq<Disk>, i: nat)
    requires i < |disks| && Usable(disks[i]) && disks[i].bootIndex == 0
    ensures PrioritisedFrom(disks, i) == PrioritisedFrom(disks, i + 1)
    ensures UsableFrom(disks, i) == [i] + UsableFrom(disks, i + 1)
  {
    assert [] + PrioritisedFrom(disks, i + 1) == PrioritisedFrom(disks, i + 1);
  }

  /** Recording a usable disk as `last` is the same as keeping it among the usable disks ahead. */
  lemma ScanOutcomeRemembersLast(p: seq<nat>, u: seq<nat>, found: Option<nat>, i: nat, last: Option<nat>)
    ensures ScanOutcome(p, u, found, Some(i)) == ScanOutcome(p, [i] + u, found, last)
  {
    var u2 := [i] + u;
    if |u| > 0 {
      assert u2[|u2| - 1] == u[|u| - 1];
    } else {
      assert u2 == [i];
    }
  }

  /** Without `<boot dev=…/>` entries the selection is `NativeChoice`; in particular it returns the last usable disk. */
  lemma GetBootDiskNative(def: DomainDef)
    requires |def.disks| > 0 && |def.os.bootDevs| == 0
    ensures GetBootDisk(def) == NativeChoice(def.disks)
  {
    assert GetBootDisk(def) == NativeScan(def.disks, 0, None, None);
    NativeScanMeaning(def.disks, 0, None, None);
  }

  /** Two usable disks of which neither has a priority: the second one is chosen. */
  lemma NativeFallbackPicksLast(def: DomainDef)
    requires |def.disks| == 2 && |def.os.bootDevs| == 0
    requires Usable(def.disks[0]) && Usable(def.disks[1])
    requires def.disks[0].bootIndex == 0 && def.disks[1].bootIndex == 0
    ensures GetBootDisk(def) == Ok(1)
  {
    GetBootDiskNative(def);
    assert PrioritisedFrom(def.disks, 2) == [];
    assert PrioritisedFrom(def.disks, 1) == [];
    assert UsableFrom(def.disks, 2) == [];
    assert UsableFrom(def.disks, 1) == [1];
    assert UsableFrom(def.disks, 0) == [0, 1];
  }

  /* ---------------- grub-bhyve boot disk (837-861) ---------------- */

  /** The C loop's locals: `userdef` with `best_idx`, and the first CD-ROM and disk seen. */
  datatype GrubScan = GrubScan(userdef: Option<nat>, best: uint32, cd: Option<nat>, hdd: Option<nat>)

  const GrubStart: GrubScan := GrubScan(None, UINT_MAX, None, None)

  predicate GrubScanValid(disks: seq<Disk>, s: GrubScan) {
    && (s.userdef.Some? ==> s.userdef.value < |disks| && Usable(disks[s.userdef.value]))
    && (s.cd.Some? ==> s.cd.value < |disks| && Usable(disks[s.cd.value]) && disks[s.cd.value].device == CdromDevice)
    && (s.hdd.Some? ==> s.hdd.value < |disks| && Usable(disks[s.hdd.value]) && disks[s.hdd.value].device == DiskDevice)
  }

  /**
   A usable disk with a priority below `best_idx` becomes `userdef` and is
   not considered as CD-ROM or disk; any other usable disk may become the
   first CD-ROM or the first disk.
   */
  function ScanGrub(disks: seq<Disk>, i: nat, s: GrubScan): (r: GrubScan)
    requires i <= |disks| && GrubScanValid(disks, s)
    ensures GrubScanValid(disks, r)
    decreases |disks| - i
  {
    if i == |disks| then s
    else if !Usable(disks[i]) then ScanGrub(disks, i + 1, s)
    else
      var d := disks[i];
      if d.bootIndex != 0 && d.bootIndex < s.best then
        ScanGrub(disks, i + 1, s.(userdef := Some(i), best := d.bootIndex))
      else
        var cd := if s.cd.None? && d.device == CdromDevice then Some(i) else s.cd;
        var hdd := if s.hdd.None? && d.device == DiskDevice then Some(i) else s.hdd;
        ScanGrub(disks, i + 1, s.(cd := cd, hdd := hdd))
  }

  /** A disk that can become `userdef`: usable, with a priority that is neither 0 nor `UINT_MAX`. */
  predicate Candidate(d: Disk) {
    Usable(d) && d.bootIndex != 0 && d.bootIndex < UINT_MAX
  }

  /** Some candidate from position `i` on has a priority below `best`. */
  predicate CandidateBelow(disks: seq<Disk>, i: nat, best: int) {
    exists j :: i <= j < |disks| && Candidate(disks[j]) && disks[j].bootIndex < best
  }

  /** `u` is the first candidate from position `i` on with the least priority among them. */
  predicate FirstLeastCandidate(disks: seq<Disk>, i: nat, u: nat) {
    && i <= u < |disks|
    && Candidate(disks[u])
    && (forall j :: i <= j < |disks| && Candidate(disks[j]) ==> disks[u].bootIndex <= disks[j].bootIndex)
    && (forall j :: i <= j < u && Candidate(disks[j]) ==> disks[u].bootIndex < disks[j].bootIndex)
  }

  /**
   What the scan from position `i` leaves in `userdef`, starting from
   `start` with priority bound `best`: `start` when no candidate ahead is
   below `best`, else the first candidate ahead with the least priority.
   */
  predicate UserdefFrom(disks: seq<Disk>, i: nat, best: int, start: Option<nat>, u: Option<nat>) {
    && (!CandidateBelow(disks, i, best) ==> u == start)
    && (CandidateBelow(disks, i, best) ==>
          u.Some? && FirstLeastCandidate(disks, i, u.value) && disks[u.value].bootIndex < best)
  }

  lemma {:induction false} ScanGrubUserdef(disks: seq<Disk>, i: nat, s: GrubScan)
    requires i <= |disks| && GrubScanValid(disks, s)
    ensures UserdefFrom(disks, i, s.best, s.userdef, ScanGrub(disks, i, s).userdef)
    decreases |disks| - i
  {
    if i < |disks| {
      var d := disks[i];
      if !Usable(d) {
        assert ScanGrub(disks, i, s) == ScanGrub(disks, i + 1, s);
        ScanGrubUserdef(disks, i + 1, s);
        UserdefStepSkip(disks, i, s.best, s.userdef, ScanGrub(disks, i, s).userdef);
      } else if d.bootIndex != 0 && d.bootIndex < s.best {
        var s' := s.(userdef := Some(i), best := d.bootIndex);
        assert ScanGrub(disks, i, s) == ScanGrub(disks, i + 1, s');
        ScanGrubUserdef(disks, i + 1, s');
        UserdefStepTake(disks, i, s.best, s.userdef, ScanGrub(disks, i, s).userdef);
      } else {
        var cd := if s.cd.None? && d.device == CdromDevice then Some(i) else s.cd;
        var hdd := if s.hdd.None? && d.device == DiskDevice then Some(i) else s.hdd;
        var s' := s.(cd := cd, hdd := hdd);
        assert ScanGrub(disks, i, s) == ScanGrub(disks, i + 1, s');
        ScanGrubUserdef(disks, i + 1, s');
        UserdefStepSkip(disks, i, s.best, s.userdef, ScanGrub(disks, i, s).userdef);
      }
    }
  }

  /** A disk that does not beat `best` leaves the outcome to the disks after it. */
  lemma UserdefStepSkip(disks: seq<Disk>, i: nat, best: int, start: Option<nat>, u: Option<nat>)
    requires i < |disks| && !(Candidate(disks[i]) && disks[i].bootIndex < best)
    requires UserdefFrom(disks, i + 1, best, start, u)
    ensures UserdefFrom(disks, i, best, start, u)
  {
    assert CandidateBelow(disks, i, best) ==> CandidateBelow(disks, i + 1, best);
    if CandidateBelow(disks, i + 1, best) {
      assert FirstLeastCandidate(disks, i, u.value);
    }
  }

  /** A candidate that beats `best` becomes the start for the disks after it. */
  lemma UserdefStepTake(disks: seq<Disk>, i: nat, best: int, start: Option<nat>, u: Option<nat>)
    requires i < |disks| && Candidate(disks[i]) && disks[i].bootIndex < best
    requires UserdefFrom(disks, i + 1, disks[i].bootIndex, Some(i), u)
    ensures UserdefFrom(disks, i, best, start, u)
  {
    assert CandidateBelow(disks, i, best);
    if CandidateBelow(disks, i + 1, disks[i].bootIndex) {
      assert FirstLeastCandidate(disks, i, u.value);
    } else {
      assert FirstLeastCandidate(disks, i, i);
    }
  }

  /** Without candidates from `i` on, the scan only records the first usable CD-ROM and disk. */
  lemma {:induction false} ScanGrubFirsts(disks: seq<Disk>, i: nat, s: GrubScan)
    requires i <= |disks| && GrubScanValid(disks, s)
    requires s.best == UINT_MAX
    requires forall j :: i <= j < |disks| ==> !Candidate(disks[j])
    ensures var r := ScanGrub(disks, i, s);
            && r.userdef == s.userdef
            && r.cd == (if s.cd.Some? then s.cd else FirstUsable(disks, CdromDevice, i))
            && r.hdd == (if s.hdd.Some? then s.hdd else FirstUsable(disks, DiskDevice, i))
    decreases |disks| - i
  {
    if i < |disks| {
      var d := disks[i];
      if !Usable(d) {
        ScanGrubFirsts(disks, i + 1, s);
      } else {
        assert !(d.bootIndex != 0 && d.bootIndex < s.best);
        var cd := if s.cd.None? && d.device == CdromDevice then Some(i) else s.cd;
        var hdd := if s.hdd.None? && d.device == DiskDevice then Some(i) else s.hdd;
        ScanGrubFirsts(disks, i + 1, s.(cd := cd, hdd := hdd));
      }
    }
  }

  /** The grub scan over a whole disk list. */
  function GrubSelection(disks: seq<Disk>): (r: GrubScan)
    ensures GrubScanValid(disks, r)
  {
    ScanGrub(disks, 0, GrubStart)
  }

  /**
   The grub `userdef` is the first usable disk with the least priority other
   than 0 and `UINT_MAX`; when there is none, `cd` and `hdd` are the first
   usable CD-ROM and the first usable disk.
   */
  lemma GrubSelectionMeaning(disks: seq<Disk>)
    ensures var r := GrubSelection(disks);
            && (r.userdef.None? <==> forall j :: 0 <= j < |disks| ==> !Candidate(disks[j]))
            && (r.userdef.Some? ==> FirstLeastCandidate(disks, 0, r.userdef.value))
            && (r.userdef.None? ==>
                  r.cd == FirstUsable(disks, CdromDevice, 0) && r.hdd == FirstUsable(disks, DiskDevice, 0))
  {
    ScanGrubUserdef(disks, 0, GrubStart);
    assert CandidateBelow(disks, 0, UINT_MAX) <==> exists j :: 0 <= j < |disks| && Candidate(disks[j]);
    if forall j :: 0 <= j < |disks| ==> !Candidate(disks[j]) {
      ScanGrubFirsts(disks, 0, GrubStart);
    }
  }

  /* ---------------- grub device map (809-818, 867-882) ---------------- */

  /** `virBhyveFormatGrubDevice`: one device-map line. */
  function DeviceLine(d: Disk): (line: string)
    ensures d.device == CdromDevice ==> "(cd) " <= line
    ensures d.device != CdromDevice ==> "(hd0) " <= line
    ensures var head := if d.device == CdromDevice then 5 else 6;
            |line| == head + |Text(d.source)| + 1 && line[head..|line| - 1] == Text(d.source)
    ensures |line| > 0 && line[|line| - 1] == '\n'
  {
    (if d.device == CdromDevice then "(cd) " else "(hd0) ") + Text(d.source) + "\n"
  }

  function LineOf(disks: seq<Disk>, k: Option<nat>): string
    requires k.Some? ==> k.value < |disks|
  {
    if k.Some? then DeviceLine(disks[k.value]) else ""
  }

  /** The device map: only `userdef`'s line, or else the disk's line followed by the CD-ROM's line. */
  function DeviceMap(disks: seq<Disk>, s: GrubScan): string
    requires GrubScanValid(disks, s)
  {
    if s.userdef.Some? then LineOf(disks, s.userdef) else LineOf(disks, s.hdd) + LineOf(disks, s.cd)
  }

  /** The `--root` value: `cd` when the chosen device is a CD-ROM. */
  function RootArg(disks: seq<Disk>, s: GrubScan): string
    requires GrubScanValid(disks, s)
  {
    if s.userdef.Some? then
      if disks[s.userdef.value].device == CdromDevice then "cd" else "hd0,msdos1"
    else if s.cd.Some? then "cd"
    else "hd0,msdos1"
  }

  /* ---------------- grub-bhyve (820-924) ---------------- */

  /** What a loader build yields: the command, and the device map when one was written. */
  datatype Loaded = Loaded(cmd: Result<Command>, deviceMap: Option<string>)

  /**
   `virBhyveProcessBuildGrubbhyveCmd`. `wantMap` says whether the caller
   asked for the device map. The map is written before the console check,
   so it is produced even when that check fails.
   */
  function BuildGrubCmd(def: DomainDef, caps: Caps, devmapFile: string, wantMap: bool): (l: Loaded)
    requires def.os.bootloader.Some?
    ensures def.os.bootloaderArgs.Some? ==> l == Loaded(BuildCustomLoaderCmd(def.os), None)
    ensures def.os.bootloaderArgs.None? ==>
              && (l.deviceMap.Some? <==> wantMap)
              && (l.cmd.Ok? <==> !(caps.grubConsDev && |def.serials| > 0 && def.serials[0].sourceType != NmdmChr))
              && (l.cmd.Fail? ==> l.cmd.error == ConsoleTypeUnsupported)
    ensures def.os.bootloaderArgs.None? && l.cmd.Ok? ==>
              var args := l.cmd.value.args;
              && l.cmd.value.program == def.os.bootloader.value
              && |args| >= 7
              && args[0] == "--root" && args[1] in {"cd", "hd0,msdos1"}
              && args[2..6] == ["--device-map", devmapFile, "--memory", MemoryToken(def)]
              && (caps.grubConsDev && |def.serials| > 0 ==>
                    args[6..] == ["--cons-dev", def.serials[0].path, def.name])
              && (!(caps.grubConsDev && |def.serials| > 0) ==> args[6..] == [def.name])
  {
    if def.os.bootloaderArgs.Some? then Loaded(BuildCustomLoaderCmd(def.os), None)
    else
      var s := GrubSelection(def.disks);
      var deviceMap := if wantMap then Some(DeviceMap(def.disks, s)) else None;
      var base := ["--root", RootArg(def.disks, s), "--device-map", devmapFile, "--memory", MemoryToken(def)];
      if caps.grubConsDev && |def.serials| > 0 then
        if def.serials[0].sourceType != NmdmChr then Loaded(Fail(ConsoleTypeUnsupported), deviceMap)
        else Loaded(Ok(Command(def.os.bootloader.value, base + ["--cons-dev", def.serials[0].path, def.name])), deviceMap)
      else
        Loaded(Ok(Command(def.os.bootloader.value, base + [def.name])), deviceMap)
  }

  /**
   The device map and `--root` follow the selection: with a candidate, only
   its line and `cd` exactly for a CD-ROM; otherwise the first usable
   disk's line then the first usable CD-ROM's line, and `cd` exactly when
   there is a usable CD-ROM. The root does not depend on whether the map
   was asked for; the map is produced exactly when it was.
   */
  lemma GrubDeviceMapMeaning(def: DomainDef, caps: Caps, devmapFile: string, wantMap: bool)
    requires def.os.bootloader.Some? && def.os.bootloaderArgs.None?
    ensures var l := BuildGrubCmd(def, caps, devmapFile, wantMap);
            var u := GrubSelection(def.disks).userdef;
            && (u.Some? ==>
                  && l.deviceMap == (if wantMap then Some(DeviceLine(def.disks[u.value])) else None)
                  && (l.cmd.Ok? ==> (l.cmd.value.args[1] == "cd" <==> def.disks[u.value].device == CdromDevice)))
            && (u.None? ==>
                  && l.deviceMap == (if wantMap then Some(LineOf(def.disks, FirstUsable(def.disks, DiskDevice, 0))
                                                         + LineOf(def.disks, FirstUsable(def.disks, CdromDevice, 0)))
                                     else None)
                  && (l.cmd.Ok? ==> (l.cmd.value.args[1] == "cd" <==> FirstUsable(def.disks, CdromDevice, 0).Some?)))
  {
    GrubSelectionMeaning(def.disks);
  }

  /**
   A disk with priority 1 and an unprioritised CD-ROM: the map holds only
   the disk's `(hd0)` line and the root is `hd0,msdos1`.
   */
  lemma GrubPrioritisedDiskScenario(def: DomainDef, caps: Caps, devmapFile: string)
    requires def.os.bootloader.Some? && def.os.bootloaderArgs.None?
    requires |def.disks| == 2
    requires Usable(def.disks[0]) && def.disks[0].device == DiskDevice && def.disks[0].bootIndex == 1
    requires Usable(def.disks[1]) && def.disks[1].device == CdromDevice && def.disks[1].bootIndex == 0
    requires !caps.grubConsDev
    ensures var l := BuildGrubCmd(def, caps, devmapFile, true);
            && l.deviceMap == Some("(hd0) " + Text(def.disks[0].source) + "\n")
            && l.cmd.Ok? && l.cmd.value.args[1] == "hd0,msdos1"
  {
    GrubSelectionMeaning(def.disks);
    var u := GrubSelection(def.disks).userdef;
    assert Candidate(def.disks[0]) && !Candidate(def.disks[1]);
    assert u == Some(0);
  }

  /** A priority of `UINT_MAX` never wins: such a disk is treated like one without priority. */
  lemma GrubIgnoresMaximalPriority(disks: seq<Disk>, j: nat)
    requires j < |disks| && disks[j].bootIndex == UINT_MAX
    ensures GrubSelection(disks).userdef != Some(j)
  {
    GrubSelectionMeaning(disks);
  }

  /* ---------------- loader dispatch (1012-1031) ---------------- */

  /** `virBhyveProcessBuildLoadCmd`. */
  function BuildLoadCmd(def: DomainDef, caps: Caps, devmapFile: string, wantMap: bool): (l: Loaded)
    ensures def.os.bootloader.None? ==>
              && l.deviceMap.None?
              && (l.cmd.Ok? ==> l.cmd.value.program == BhyveloadBinary)
              && (GetBootDisk(def).Fail? ==> l.cmd == Fail(GetBootDisk(def).error))
              && (GetBootDisk(def).Ok? ==> l.cmd == BuildBhyveloadCmd(def, def.disks[GetBootDisk(def).value]))
    ensures def.os.bootloader.Some? && Contains(def.os.bootloader.value, GrubMarker) ==>
              l == BuildGrubCmd(def, caps, devmapFile, wantMap)
    ensures def.os.bootloader.Some? && !Contains(def.os.bootloader.value, GrubMarker) ==>
              l == Loaded(BuildCustomLoaderCmd(def.os), None)
    ensures l.deviceMap.Some? ==> def.os.bootloader.Some? && Contains(def.os.bootloader.value, GrubMarker) && wantMap
    ensures l.cmd.Ok? && def.os.bootloader.Some? ==> l.cmd.value.program == def.os.bootloader.value
  {
    if def.os.bootloader.None? then
      match GetBootDisk(def)
      case Fail(e) => Loaded(Fail(e), None)
      case Ok(k) => Loaded(BuildBhyveloadCmd(def, def.disks[k]), None)
    else if Contains(def.os.bootloader.value, GrubMarker) then BuildGrubCmd(def, caps, devmapFile, wantMap)
    else Loaded(BuildCustomLoaderCmd(def.os), None)
  }

  /** A loader whose name mentions `grub-bhyve` anywhere is treated as grub. */
  lemma GrubDetectedAnywhere(def: DomainDef, caps: Caps, devmapFile: string, prefix: string, suffix: string)
    requires def.os.bootloader == Some(prefix + GrubMarker + suffix)
    ensures BuildLoadCmd(def, caps, devmapFile, true) == BuildGrubCmd(def, caps, devmapFile, true)
  {
    var b := prefix + GrubMarker + suffix;
    assert b[|prefix|..|prefix| + |GrubMarker|] == GrubMarker;
    assert OccursAt(b, GrubMarker, |prefix|);
    ContainsIffOccurs(b, GrubMarker);
  }

  /**
   The memory size reads back as the least MiB count covering the
   configured KiB, and `bhyve`, `bhyveload` and `grub-bhyve` all receive
   that same token.
   */
  lemma MemoryTokenMeaning(def: DomainDef)
    requires def.memoryKiB <= KIB_WRAP - 1024
    ensures ParseNat(MemoryToken(def)).Some?
    ensures var m := ParseNat(MemoryToken(def)).value;
            m * 1024 >= def.memoryKiB && (m == 0 || (m - 1) * 1024 < def.memoryKiB)
  {
    ParseNatToString(MemoryMiB(def.memoryKiB));
  }

  lemma LoaderMemoryAgrees(def: DomainDef, caps: Caps, devmapFile: string)
    requires def.os.bootloaderArgs.None?
    ensures def.os.bootloader.None? && BuildLoadCmd(def, caps, devmapFile, true).cmd.Ok? ==>
              BuildLoadCmd(def, caps, devmapFile, true).cmd.value.args[1] == MemoryToken(def)
    ensures def.os.bootloader.Some? && Contains(def.os.bootloader.value, GrubMarker) &&
            BuildLoadCmd(def, caps, devmapFile, true).cmd.Ok? ==>
              BuildLoadCmd(def, caps, devmapFile, true).cmd.value.args[5] == MemoryToken(def)
  {
  }
}

=== FILE: devices.dfy ===
/**
 The per-device argument builders of bhyve_command.c. Each takes one device
 record (plus whatever of the definition it reads) and the capability bits,
 and yields the `-s`/`-l` tokens it appends, or the error it reports.
 */
module Devices {
  import opened Wrappers
  import opened Strings
  import opened Domain

  /* ---------------- network interfaces (43-131) ---------------- */

  const GeneratedTapPrefix: string := "vnet"
  const GeneratedTapTemplate: string := "vnet%d"
  const DryRunTap: string := "tap0"

  /** The `-s` value of a NIC: `<slot>:0,<model>,<tap>,mac=<mac>`. */
  function NetToken(slot: nat, model: string, tap: string, mac: string): string {
    Join([NatToString(slot) + ":0", model, tap, "mac=" + mac], ',')
  }

  predicate NicModelSupported(model: NetModel, caps: Caps) {
    model == VirtioNet || (model == E1000Net && caps.netE1000)
  }

  function NicModelName(model: NetModel, caps: Caps): (r: Result<string>)
    ensures r.Ok? <==> NicModelSupported(model, caps)
    ensures model == VirtioNet ==> r == Ok("virtio-net")
    ensures model == E1000Net && caps.netE1000 ==> r == Ok("e1000")
    ensures model == E1000Net && !caps.netE1000 ==> r == Fail(NicE1000Unsupported)
    ensures model == OtherNetModel ==> r == Fail(NicModelUnsupported)
  {
    match model
    case VirtioNet => Ok("virtio-net")
    case E1000Net => if caps.netE1000 then Ok("e1000") else Fail(NicE1000Unsupported)
    case OtherNetModel => Fail(NicModelUnsupported)
  }

  /** An interface name that is absent, auto-generated or a template is replaced. */
  predicate NeedsGeneratedName(ifname: Option<string>) {
    ifname.None? || GeneratedTapPrefix <= ifname.value || '%' in ifname.value
  }

  /** The name handed to tap creation (or kept under dry run). */
  function RequestedIfname(ifname: Option<string>): string {
    if NeedsGeneratedName(ifname) then GeneratedTapTemplate else ifname.value
  }

  /** Whether every host call of the live path succeeds for the NIC at `pos`. */
  predicate TapSucceeds(host: Host, pos: nat) {
    host.DryRun? || (host.tap(pos).created.Some? && host.tap(pos).realName.Some? && host.tap(pos).online)
  }

  /** The tokens of one NIC and the interface name it leaves in the definition. */
  datatype NetOutcome = NetOutcome(args: Result<seq<string>>, ifname: Option<string>)

  /**
   `bhyveBuildNetArgStr`. `pos` is the NIC's position, which selects the
   host's answers on the live path.
   */
  function BuildNetArg(net: Net, caps: Caps, host: Host, pos: nat): (o: NetOutcome)
    ensures o.args.Ok? <==> NicModelSupported(net.model, caps) && net.actualType == BridgeNet && TapSucceeds(host, pos)
    ensures !NicModelSupported(net.model, caps) ==> o.ifname == net.ifname
    ensures NicModelSupported(net.model, caps) && net.actualType != BridgeNet ==> o.args == Fail(NetTypeUnsupported)
    ensures NicModelSupported(net.model, caps) && o.args.Fail? ==> o.ifname == None
    ensures o.args.Ok? && host.DryRun? ==>
              o.ifname == Some(RequestedIfname(net.ifname)) &&
              o.args.value == ["-s", NetToken(net.slot, NicModelName(net.model, caps).value, DryRunTap, net.mac)]
    ensures o.args.Ok? && host.Live? ==>
              o.ifname == host.tap(pos).created &&
              o.args.value == ["-s", NetToken(net.slot, NicModelName(net.model, caps).value, host.tap(pos).realName.value, net.mac)]
  {
    match NicModelName(net.model, caps)
    case Fail(e) => NetOutcome(Fail(e), net.ifname)
    case Ok(model) =>
      if net.actualType != BridgeNet then NetOutcome(Fail(NetTypeUnsupported), None)
      else
        var requested := RequestedIfname(net.ifname);
        match host
        case DryRun =>
          NetOutcome(Ok(["-s", NetToken(net.slot, model, DryRunTap, net.mac)]), Some(requested))
        case Live(tap, _) =>
          var answer := tap(pos);
          if answer.created.None? then NetOutcome(Fail(TapCreateFailed), None)
          else if answer.realName.None? then NetOutcome(Fail(TapNameLookupFailed), None)
          else if !answer.online then NetOutcome(Fail(TapOnlineFailed), None)
          else NetOutcome(Ok(["-s", NetToken(net.slot, model, answer.realName.value, net.mac)]), answer.created)
  }

  /** Under dry run a NIC keeps a stable name and otherwise gets the `vnet%d` template. */
  lemma NetDryRunIfname(net: Net, caps: Caps, pos: nat)
    requires BuildNetArg(net, caps, DryRun, pos).args.Ok?
    ensures NeedsGeneratedName(net.ifname) ==> BuildNetArg(net, caps, DryRun, pos).ifname == Some("vnet%d")
    ensures !NeedsGeneratedName(net.ifname) ==> BuildNetArg(net, caps, DryRun, pos).ifname == net.ifname
  {
  }

  /** A dry-run build is idempotent: rebuilding the NIC it updated changes nothing. */
  lemma NetDryRunIdempotent(net: Net, caps: Caps, pos: nat)
    ensures var o := BuildNetArg(net, caps, DryRun, pos);
            BuildNetArg(net.(ifname := o.ifname), caps, DryRun, pos).args == o.args
    ensures var o := BuildNetArg(net, caps, DryRun, pos);
            o.args.Ok? ==> BuildNetArg(net.(ifname := o.ifname), caps, DryRun, pos).ifname == o.ifname
  {
    var o := BuildNetArg(net, caps, DryRun, pos);
    if o.args.Ok? && NeedsGeneratedName(net.ifname) {
      assert GeneratedTapPrefix <= GeneratedTapTemplate;
    }
  }

  /** The NIC token reads back field by field when the MAC and tap name hold no comma. */
  lemma NetTokenFields(slot: nat, model: string, tap: string, mac: string)
    requires model in {"virtio-net", "e1000"}
    requires ',' !in tap && ',' !in mac
    ensures Split(NetToken(slot, model, tap, mac), ',') == [NatToString(slot) + ":0", model, tap, "mac=" + mac]
  {
    var fields := [NatToString(slot) + ":0", model, tap, "mac=" + mac];
    assert ',' !in NatToString(slot) + ":0" by {
      assert forall k :: 0 <= k < |NatToString(slot)| ==> IsDigit(NatToString(slot)[k]);
    }
    assert forall k :: 0 <= k < |fields| ==> ',' !in fields[k];
    SplitJoin(fields, ',');
  }

  /* ---------------- serial console (134-161) ---------------- */

  /** `bhyveBuildConsoleArgStr`: only the first serial device is looked at. */
  function BuildConsoleArg(serials: seq<Serial>): (r: Result<seq<string>>)
    ensures |serials| == 0 ==> r == Ok([])
    ensures |serials| > 0 ==> (r.Ok? <==> serials[0].sourceType == NmdmChr && serials[0].port <= 2)
    ensures |serials| > 0 && serials[0].sourceType != NmdmChr ==> r == Fail(ConsoleTypeUnsupported)
    ensures |serials| > 0 && serials[0].sourceType == NmdmChr && serials[0].port > 2 ==> r == Fail(ConsolePortUnsupported)
    ensures |serials| > 0 && r.Ok? ==>
              r.value == ["-l", "com" + IntToString(serials[0].port + 1) + "," + serials[0].path]
  {
    if |serials| == 0 then Ok([])
    else
      var chr := serials[0];
      if chr.sourceType != NmdmChr then Fail(ConsoleTypeUnsupported)
      else if chr.port > 2 then Fail(ConsolePortUnsupported)
      else Ok(["-l", "com" + IntToString(chr.port + 1) + "," + chr.path])
  }

  /**
   The device name reads back: for the ports bhyve numbers from zero, the
   digit after `com` is the port plus one and the path follows the comma.
   */
  lemma ConsoleNamesPort(port: int, path: string)
    requires 0 <= port <= 2
    ensures var r := BuildConsoleArg([Serial(NmdmChr, path, port)]);
            && r.Ok? && |r.value[1]| == 5 + |path|
            && r.value[1][..3] == "com"
            && ParseNat(r.value[1][3..4]) == Some(port + 1)
            && r.value[1][4] == ','
            && r.value[1][5..] == path
  {
    var t := BuildConsoleArg([Serial(NmdmChr, path, port)]).value[1];
    assert IntToString(port + 1) == [DigitChar(port + 1)];
    assert t == "com" + [DigitChar(port + 1)] + "," + path;
    assert t[3..4] == [DigitChar(port + 1)];
    ParseNatToString(port + 1);
  }

  /** Port index 2 is accepted and names a third port, `com3`. */
  lemma ConsoleAcceptsThirdPort(path: string)
    ensures BuildConsoleArg([Serial(NmdmChr, path, 2)]) == Ok(["-l", "com3," + path])
  {
    assert IntToString(2 + 1) == [DigitChar(3)] == "3";
    assert "com" + "3" + "," + path == "com3," + path;
  }

  /* ---------------- AHCI controllers (164-232) ---------------- */

  predicate OnController(d: Disk, idx: nat) {
    d.bus == SataBus && d.controller == idx
  }

  predicate FileBacked(d: Disk) {
    d.storage == FileStorage || d.storage == VolumeStorage
  }

  /** The first check an AHCI-attached disk fails, in the order the builder makes them. */
  function AhciDiskError(d: Disk): Option<Error> {
    if !FileBacked(d) then Some(DiskTypeUnsupported)
    else if !d.resolves then Some(DiskSourceUnresolved)
    else if d.device == CdromDevice && d.source.None? then Some(CdromWithoutSource)
    else if d.device != DiskDevice && d.device != CdromDevice then Some(DiskDeviceUnsupported)
    else None
  }

  /** The fragment of a disk that passed the checks: `,hd:`/`,cd:` with 32-slot AHCI, else `-hd,`/`-cd,`. */
  function AhciFragment(d: Disk, ahci32: bool): (f: string)
    ensures |f| >= 4 && (f[0] == ',' <==> ahci32) && (f[0] == '-' <==> !ahci32)
    ensures f[1..3] == (if d.device == CdromDevice then "cd" else "hd")
    ensures f[3] == (if ahci32 then ':' else ',')
    ensures f[4..] == Text(d.source)
  {
    var kind := if d.device == CdromDevice then "cd" else "hd";
    if ahci32 then "," + kind + ":" + Text(d.source) else "-" + kind + "," + Text(d.source)
  }

  /** The SATA disks of controller `idx` from position `i` on, in disk order. */
  function BoundDisks(disks: seq<Disk>, idx: nat, i: nat): (r: seq<Disk>)
    requires i <= |disks|
    ensures forall k :: 0 <= k < |r| ==> OnController(r[k], idx)
    decreases |disks| - i
  {
    if i == |disks| then []
    else if OnController(disks[i], idx) then [disks[i]] + BoundDisks(disks, idx, i + 1)
    else BoundDisks(disks, idx, i + 1)
  }

  /** The loop of `bhyveBuildAHCIControllerArgStr` from disk `i` on. */
  function AhciFragments(disks: seq<Disk>, idx: nat, ahci32: bool, i: nat): (r: Result<seq<string>>)
    requires i <= |disks|
    ensures r.Ok? <==> forall k :: i <= k < |disks| && OnController(disks[k], idx) ==> AhciDiskError(disks[k]).None?
    ensures r.Fail? ==>
              exists k :: i <= k < |disks| && OnController(disks[k], idx) && AhciDiskError(disks[k]) == Some(r.error) &&
                forall j :: i <= j < k && OnController(disks[j], idx) ==> AhciDiskError(disks[j]).None?
    ensures r.Ok? ==>
              |r.value| == |BoundDisks(disks, idx, i)| &&
              forall k :: 0 <= k < |r.value| ==> r.value[k] == AhciFragment(BoundDisks(disks, idx, i)[k], ahci32)
    decreases |disks| - i
  {
    if i == |disks| then Ok([])
    else
      var d := disks[i];
      if !OnController(d, idx) then AhciFragments(disks, idx, ahci32, i + 1)
      else if AhciDiskError(d).Some? then Fail(AhciDiskError(d).value)
      else
        var rest := AhciFragments(disks, idx, ahci32, i + 1);
        if rest.Fail? then Fail(rest.error)
        else Ok([AhciFragment(d, ahci32)] + rest.value)
  }

  /** The `-s` value of an AHCI controller with its disks' fragments. */
  function AhciToken(ctl: Controller, fragments: seq<string>): string {
    NatToString(ctl.slot) + ":0,ahci" + Concat(fragments)
  }

  function BuildAhciArg(ctl: Controller, disks: seq<Disk>, caps: Caps): (r: Result<seq<string>>)
    ensures r.Ok? <==> forall k :: 0 <= k < |disks| && OnController(disks[k], ctl.idx) ==> AhciDiskError(disks[k]).None?
  {
    var fragments :- AhciFragments(disks, ctl.idx, caps.ahci32Slot, 0);
    Ok(["-s", AhciToken(ctl, fragments)])
  }

  /**
   On success the AHCI argument holds exactly one fragment per disk of the
   controller, in disk order, and every fragment uses the 32-slot form
   exactly when the binary supports it.
   */
  lemma AhciOneFragmentPerDisk(ctl: Controller, disks: seq<Disk>, caps: Caps)
    requires BuildAhciArg(ctl, disks, caps).Ok?
    ensures var fragments := AhciFragments(disks, ctl.idx, caps.ahci32Slot, 0).value;
            && BuildAhciArg(ctl, disks, caps).value == ["-s", AhciToken(ctl, fragments)]
            && |fragments| == |BoundDisks(disks, ctl.idx, 0)|
            && (forall k :: 0 <= k < |fragments| ==> fragments[k] == AhciFragment(BoundDisks(disks, ctl.idx, 0)[k], caps.ahci32Slot))
            && (forall k :: 0 <= k < |fragments| ==> (fragments[k][0] == ',' <==> caps.ahci32Slot))
  {
  }

  /** A CD-ROM without a source on the controller makes the whole controller fail. */
  lemma AhciCdromNeedsSource(ctl: Controller, disks: seq<Disk>, caps: Caps, k: nat)
    requires k < |disks| && OnController(disks[k], ctl.idx)
    requires disks[k].device == CdromDevice && disks[k].source.None?
    ensures BuildAhciArg(ctl, disks, caps).Fail?
  {
    assert AhciDiskError(disks[k]).Some?;
  }

  /* ---------------- USB controllers (235-271) ---------------- */

  /** The first input device that is not a USB tablet, as the error it reports. */
  function InputError(inputs: seq<Input>, i: nat): (e: Option<Error>)
    requires i <= |inputs|
    ensures e.None? <==> forall k :: i <= k < |inputs| ==> inputs[k] == Input(UsbInput, Tablet)
    decreases |inputs| - i
  {
    if i == |inputs| then None
    else if inputs[i].bus != UsbInput then Some(InputBusUnsupported)
    else if inputs[i].kind != Tablet then Some(InputTypeUnsupported)
    else InputError(inputs, i + 1)
  }

  /** `bhyveBuildUSBControllerArgStr`. */
  function BuildUsbArg(ctl: Controller, inputs: seq<Input>): (r: Result<seq<string>>)
    ensures r.Ok? <==> inputs == [Input(UsbInput, Tablet)]
    ensures r.Ok? ==> r.value == ["-s", NatToString(ctl.slot) + ":" + NatToString(ctl.func) + ",xhci,tablet"]
    ensures |inputs| == 0 ==> r == Fail(InputCountUnsupported)
  {
    var bad := InputError(inputs, 0);
    if bad.Some? then Fail(bad.value)
    else if |inputs| != 1 then Fail(InputCountUnsupported)
    else Ok(["-s", NatToString(ctl.slot) + ":" + NatToString(ctl.func) + ",xhci,tablet"])
  }

  /* ---------------- virtio disks and disk dispatch (274-325) ---------------- */

  /** `bhyveBuildVirtIODiskArgStr`. */
  function BuildVirtioDiskArg(d: Disk): (r: Result<seq<string>>)
    ensures r.Ok? <==> d.resolves && d.device == DiskDevice && FileBacked(d)
    ensures r.Ok? ==> r.value == ["-s", NatToString(d.slot) + ":0,virtio-blk," + Text(d.source)]
  {
    if !d.resolves then Fail(DiskSourceUnresolved)
    else if d.device != DiskDevice then Fail(DiskDeviceUnsupported)
    else if !FileBacked(d) then Fail(DiskTypeUnsupported)
    else Ok(["-s", NatToString(d.slot) + ":0,virtio-blk," + Text(d.source)])
  }

  /** `bhyveBuildDiskArgStr`: SATA disks are emitted with their controller. */
  function BuildDiskArg(d: Disk): (r: Result<seq<string>>)
    ensures d.bus == SataBus ==> r == Ok([])
    ensures d.bus == VirtioBus ==> r == BuildVirtioDiskArg(d)
    ensures d.bus == OtherBus ==> r == Fail(DiskDeviceUnsupported)
  {
    match d.bus
    case SataBus => Ok([])
    case VirtioBus => BuildVirtioDiskArg(d)
    case OtherBus => Fail(DiskDeviceUnsupported)
  }

  /* ---------------- controller dispatch (327-370) ---------------- */

  /** The tokens of one controller and the USB and ISA controller counts after it. */
  datatype ControllerStep = ControllerStep(args: Result<seq<string>>, usbCount: nat, isaCount: nat)

  /** `bhyveBuildControllerArgStr`, with the two counters threaded through. */
  function BuildControllerArg(ctl: Controller, disks: seq<Disk>, inputs: seq<Input>, caps: Caps,
                              usbCount: nat, isaCount: nat): (s: ControllerStep)
    ensures ctl.kind == UsbController ==> s.usbCount == usbCount + 1 && s.isaCount == isaCount
    ensures ctl.kind == IsaController ==> s.isaCount == isaCount + 1 && s.usbCount == usbCount
    ensures ctl.kind != UsbController && ctl.kind != IsaController ==> s.usbCount == usbCount && s.isaCount == isaCount
    ensures ctl.kind == UsbController && usbCount >= 1 ==> s.args == Fail(SecondUsbController)
    ensures ctl.kind == IsaController && isaCount >= 1 ==> s.args == Fail(SecondIsaController)
    ensures ctl.kind.PciController? ==> (s.args.Ok? <==> ctl.kind.isRoot) && (s.args.Ok? ==> s.args.value == [])
    ensures ctl.kind == SataController ==> s.args == BuildAhciArg(ctl, disks, caps)
    ensures ctl.kind == UsbController && usbCount == 0 ==> s.args == BuildUsbArg(ctl, inputs)
    ensures ctl.kind == IsaController && isaCount == 0 ==> s.args == Ok(["-s", NatToString(ctl.slot) + ":0,lpc"])
    ensures ctl.kind == OtherController ==> s.args == Ok([])
  {
    match ctl.kind
    case PciController(isRoot) =>
      ControllerStep(if isRoot then Ok([]) else Fail(PciModelUnsupported), usbCount, isaCount)
    case SataController =>
      ControllerStep(BuildAhciArg(ctl, disks, caps), usbCount, isaCount)
    case UsbController =>
      ControllerStep(if usbCount + 1 > 1 then Fail(SecondUsbController) else BuildUsbArg(ctl, inputs),
                     usbCount + 1, isaCount)
    case IsaController =>
      ControllerStep(if isaCount + 1 > 1 then Fail(SecondIsaController) else Ok(["-s", NatToString(ctl.slot) + ":0,lpc"]),
                     usbCount, isaCount + 1)
    case OtherController =>
      ControllerStep(Ok([]), usbCount, isaCount)
  }

  /**
   What each controller yields on its own, as if no controller of its kind
   came before it: the reference the counted loop is measured against.
   */
  function AloneResults(ctls: seq<Controller>, disks: seq<Disk>, inputs: seq<Input>, caps: Caps): (rs: seq<Result<seq<string>>>)
    ensures |rs| == |ctls|
  {
    seq(|ctls|, k requires 0 <= k < |ctls| => BuildControllerArg(ctls[k], disks, inputs, caps, 0, 0).args)
  }

  /** A controller not preceded by one of its own counted kind yields what it yields on its own. */
  lemma SameAsAlone(ctl: Controller, disks: seq<Disk>, inputs: seq<Input>, caps: Caps, usbCount: nat, isaCount: nat)
    requires IsUsb(ctl) ==> usbCount == 0
    requires IsIsa(ctl) ==> isaCount == 0
    ensures BuildControllerArg(ctl, disks, inputs, caps, usbCount, isaCount).args
            == BuildControllerArg(ctl, disks, inputs, caps, 0, 0).args
  {
  }

  /** The controller loop of the main composer, from controller `i` on. */
  function BuildControllerArgs(ctls: seq<Controller>, disks: seq<Disk>, inputs: seq<Input>, caps: Caps,
                               i: nat, usbCount: nat, isaCount: nat): Result<seq<string>>
    requires i <= |ctls|
    decreases |ctls| - i
  {
    if i == |ctls| then Ok([])
    else
      var step := BuildControllerArg(ctls[i], disks, inputs, caps, usbCount, isaCount);
      if step.args.Fail? then Fail(step.args.error)
      else
        var rest := BuildControllerArgs(ctls, disks, inputs, caps, i + 1, step.usbCount, step.isaCount);
        if rest.Fail? then Fail(rest.error)
        else Ok(step.args.value + rest.value)
  }

  /**
   What the controller loop emits is every controller's own tokens, in
   controller order: the counters only ever turn a controller into a
   failure, never change its tokens.
   */
  lemma {:induction false} ControllerArgsTokens(ctls: seq<Controller>, disks: seq<Disk>, inputs: seq<Input>, caps: Caps,
                                                i: nat, usbCount: nat, isaCount: nat)
    requires i <= |ctls|
    ensures var r := BuildControllerArgs(ctls, disks, inputs, caps, i, usbCount, isaCount);
            r.Ok? ==> r.value == Emitted(AloneResults(ctls, disks, inputs, caps)[i..])
    decreases |ctls| - i
  {
    var r := BuildControllerArgs(ctls, disks, inputs, caps, i, usbCount, isaCount);
    if i < |ctls| && r.Ok? {
      var step := BuildControllerArg(ctls[i], disks, inputs, caps, usbCount, isaCount);
      ControllerArgsTokens(ctls, disks, inputs, caps, i + 1, step.usbCount, step.isaCount);
      var alone := AloneResults(ctls, disks, inputs, caps);
      SameAsAlone(ctls[i], disks, inputs, caps, usbCount, isaCount);
      assert alone[i..] == [alone[i]] + alone[i + 1..];
      EmittedCons(alone[i], alone[i + 1..]);
    }
  }

  predicate IsUsb(c: Controller) {
    c.kind == UsbController
  }

  predicate IsIsa(c: Controller) {
    c.kind == IsaController
  }

  /** A USB controller when `usb` holds, an ISA controller otherwise. */
  predicate IsCounted(c: Controller, usb: bool) {
    if usb then IsUsb(c) else IsIsa(c)
  }

  function Counter(usb: bool, usbCount: nat, isaCount: nat): nat {
    if usb then usbCount else isaCount
  }

  /** Once the counter has passed zero, a list that builds holds no further USB (or ISA) controller. */
  lemma {:induction false} CountedNeedsZero(ctls: seq<Controller>, disks: seq<Disk>, inputs: seq<Input>, caps: Caps,
                                            i: nat, usbCount: nat, isaCount: nat, usb: bool)
    requires i <= |ctls|
    requires BuildControllerArgs(ctls, disks, inputs, caps, i, usbCount, isaCount).Ok?
    ensures forall j :: i <= j < |ctls| && IsCounted(ctls[j], usb) ==> Counter(usb, usbCount, isaCount) == 0
    decreases |ctls| - i
  {
    if i < |ctls| {
      var step := BuildControllerArg(ctls[i], disks, inputs, caps, usbCount, isaCount);
      assert step.args.Ok?;
      CountedNeedsZero(ctls, disks, inputs, caps, i + 1, step.usbCount, step.isaCount, usb);
      assert Counter(usb, usbCount, isaCount) <= Counter(usb, step.usbCount, step.isaCount);
    }
  }

  /**
   A controller list that builds holds at most one USB (or ISA) controller,
   and none at all once the counter has already passed zero.
   */
  lemma {:induction false} CountedAtMostOnce(ctls: seq<Controller>, disks: seq<Disk>, inputs: seq<Input>, caps: Caps,
                                             i: nat, usbCount: nat, isaCount: nat, usb: bool)
    requires i <= |ctls|
    requires BuildControllerArgs(ctls, disks, inputs, caps, i, usbCount, isaCount).Ok?
    ensures forall j :: i <= j < |ctls| && IsCounted(ctls[j], usb) ==> Counter(usb, usbCount, isaCount) == 0
    ensures forall j, k :: i <= j < k < |ctls| ==> !(IsCounted(ctls[j], usb) && IsCounted(ctls[k], usb))
    decreases |ctls| - i
  {
    CountedNeedsZero(ctls, disks, inputs, caps, i, usbCount, isaCount, usb);
    if i < |ctls| {
      var step := BuildControllerArg(ctls[i], disks, inputs, caps, usbCount, isaCount);
      assert step.args.Ok?;
      CountedAtMostOnce(ctls, disks, inputs, caps, i + 1, step.usbCount, step.isaCount, usb);
      if IsCounted(ctls[i], usb) {
        assert Counter(usb, step.usbCount, step.isaCount) == 1;
      }
    }
  }

  /** In a controller list that builds, every PCI controller is the root. */
  lemma {:induction false} ControllersPciRoot(ctls: seq<Controller>, disks: seq<Disk>, inputs: seq<Input>, caps: Caps,
                                              i: nat, usbCount: nat, isaCount: nat)
    requires i <= |ctls|
    requires BuildControllerArgs(ctls, disks, inputs, caps, i, usbCount, isaCount).Ok?
    ensures forall j :: i <= j < |ctls| && ctls[j].kind.PciController? ==> ctls[j].kind.isRoot
    decreases |ctls| - i
  {
    if i < |ctls| {
      var step := BuildControllerArg(ctls[i], disks, inputs, caps, usbCount, isaCount);
      assert step.args.Ok?;
      ControllersPciRoot(ctls, disks, inputs, caps, i + 1, step.usbCount, step.isaCount);
      assert ctls[i].kind.PciController? ==> ctls[i].kind.isRoot;
    }
  }

  /** In a controller list that builds, a USB controller comes with its one tablet. */
  lemma {:induction false} ControllersUsbTablet(ctls: seq<Controller>, disks: seq<Disk>, inputs: seq<Input>, caps: Caps,
                                                i: nat, usbCount: nat, isaCount: nat)
    requires i <= |ctls|
    requires BuildControllerArgs(ctls, disks, inputs, caps, i, usbCount, isaCount).Ok?
    ensures forall j :: i <= j < |ctls| && IsUsb(ctls[j]) ==> inputs == [Input(UsbInput, Tablet)]
    decreases |ctls| - i
  {
    if i < |ctls| {
      var step := BuildControllerArg(ctls[i], disks, inputs, caps, usbCount, isaCount);
      assert step.args.Ok?;
      ControllersUsbTablet(ctls, disks, inputs, caps, i + 1, step.usbCount, step.isaCount);
      if IsUsb(ctls[i]) {
        assert usbCount == 0;
        assert BuildUsbArg(ctls[i], inputs).Ok?;
      }
    }
  }

  /** In a controller list that builds, every PCI controller is the root and a USB controller has its one tablet. */
  lemma ControllersEachValid(ctls: seq<Controller>, disks: seq<Disk>, inputs: seq<Input>, caps: Caps,
                             i: nat, usbCount: nat, isaCount: nat)
    requires i <= |ctls|
    requires BuildControllerArgs(ctls, disks, inputs, caps, i, usbCount, isaCount).Ok?
    ensures forall j :: i <= j < |ctls| && ctls[j].kind.PciController? ==> ctls[j].kind.isRoot
    ensures forall j :: i <= j < |ctls| && IsUsb(ctls[j]) ==> inputs == [Input(UsbInput, Tablet)]
  {
    ControllersPciRoot(ctls, disks, inputs, caps, i, usbCount, isaCount);
    ControllersUsbTablet(ctls, disks, inputs, caps, i, usbCount, isaCount);
  }

  /**
   The controller list builds only if it holds at most one USB and at most
   one ISA controller, every PCI controller is the root, and a USB
   controller comes with exactly one input, a USB tablet.
   */
  lemma ControllersBuildOnlyIfValid(ctls: seq<Controller>, disks: seq<Disk>, inputs: seq<Input>, caps: Caps)
    requires BuildControllerArgs(ctls, disks, inputs, caps, 0, 0, 0).Ok?
    ensures forall j, k :: 0 <= j < k < |ctls| ==> !(IsUsb(ctls[j]) && IsUsb(ctls[k]))
    ensures forall j, k :: 0 <= j < k < |ctls| ==> !(IsIsa(ctls[j]) && IsIsa(ctls[k]))
    ensures forall j :: 0 <= j < |ctls| && ctls[j].kind.PciController? ==> ctls[j].kind.isRoot
    ensures forall j :: 0 <= j < |ctls| && IsUsb(ctls[j]) ==> inputs == [Input(UsbInput, Tablet)]
  {
    CountedAtMostOnce(ctls, disks, inputs, caps, 0, 0, 0, true);
    CountedAtMostOnce(ctls, disks, inputs, caps, 0, 0, 0, false);
    ControllersEachValid(ctls, disks, inputs, caps, 0, 0, 0);
  }

  lemma {:induction false} ControllersBuildFrom(ctls: seq<Controller>, disks: seq<Disk>, inputs: seq<Input>, caps: Caps,
                                                i: nat, usbCount: nat, isaCount: nat)
    requires i <= |ctls|
    requires forall k :: i <= k < |ctls| ==> BuildControllerArg(ctls[k], disks, inputs, caps, 0, 0).args.Ok?
    requires forall j, k :: i <= j < k < |ctls| ==> !(IsUsb(ctls[j]) && IsUsb(ctls[k]))
    requires forall j, k :: i <= j < k < |ctls| ==> !(IsIsa(ctls[j]) && IsIsa(ctls[k]))
    requires usbCount > 0 ==> forall k :: i <= k < |ctls| ==> !IsUsb(ctls[k])
    requires isaCount > 0 ==> forall k :: i <= k < |ctls| ==> !IsIsa(ctls[k])
    ensures BuildControllerArgs(ctls, disks, inputs, caps, i, usbCount, isaCount).Ok?
    decreases |ctls| - i
  {
    if i < |ctls| {
      var step := BuildControllerArg(ctls[i], disks, inputs, caps, usbCount, isaCount);
      SameAsAlone(ctls[i], disks, inputs, caps, usbCount, isaCount);
      assert step.args.Ok?;
      assert step.usbCount > 0 ==> forall k :: i + 1 <= k < |ctls| ==> !IsUsb(ctls[k]) by {
        if step.usbCount > 0 && usbCount == 0 {
          assert IsUsb(ctls[i]);
        }
      }
      assert step.isaCount > 0 ==> forall k :: i + 1 <= k < |ctls| ==> !IsIsa(ctls[k]) by {
        if step.isaCount > 0 && isaCount == 0 {
          assert IsIsa(ctls[i]);
        }
      }
      ControllersBuildFrom(ctls, disks, inputs, caps, i + 1, step.usbCount, step.isaCount);
    }
  }

  /**
   The converse of `ControllersBuildOnlyIfValid`: a list whose controllers
   each build on their own, with at most one USB and at most one ISA
   controller, builds.
   */
  lemma ControllersBuildIfValid(ctls: seq<Controller>, disks: seq<Disk>, inputs: seq<Input>, caps: Caps)
    requires forall k :: 0 <= k < |ctls| ==> BuildControllerArg(ctls[k], disks, inputs, caps, 0, 0).args.Ok?
    requires forall j, k :: 0 <= j < k < |ctls| ==> !(IsUsb(ctls[j]) && IsUsb(ctls[k]))
    requires forall j, k :: 0 <= j < k < |ctls| ==> !(IsIsa(ctls[j]) && IsIsa(ctls[k]))
    ensures BuildControllerArgs(ctls, disks, inputs, caps, 0, 0, 0).Ok?
  {
    ControllersBuildFrom(ctls, disks, inputs, caps, 0, 0, 0);
  }

  /** A controller that fails on its own (with fresh counters) fails the whole controller list. */
  lemma {:induction false} ControllerFailureIsFatal(ctls: seq<Controller>, disks: seq<Disk>, inputs: seq<Input>,
                                                    caps: Caps, i: nat, usbCount: nat, isaCount: nat, k: nat)
    requires i <= k < |ctls|
    requires BuildControllerArg(ctls[k], disks, inputs, caps, 0, 0).args.Fail?
    ensures BuildControllerArgs(ctls, disks, inputs, caps, i, usbCount, isaCount).Fail?
    decreases |ctls| - i
  {
    var step := BuildControllerArg(ctls[i], disks, inputs, caps, usbCount, isaCount);
    if i < k && step.args.Ok? {
      ControllerFailureIsFatal(ctls, disks, inputs, caps, i + 1, step.usbCount, step.isaCount, k);
    }
  }

  /* ---------------- graphics (373-482) ---------------- */

  const VncPortMin: int := 5900
  const VncPortMax: int := 65535

  /** The listen address as written after `tcp=`: bracketed when it contains ':'. */
  function ListenHost(address: Option<string>): string {
    match address
    case None => ""
    case Some(a) => if ':' in a then "[" + a + "]" else a
  }

  /** Removes the brackets `ListenHost` adds. */
  function Unbracket(h: string): string {
    if ':' in h && |h| >= 2 && h[0] == '[' && h[|h| - 1] == ']' then h[1..|h| - 1] else h
  }

  /** The index of the last `c` in `s`, or -1. */
  function LastIndexOf(s: string, c: char): (r: int)
    ensures -1 <= r < |s|
    ensures r >= 0 ==> s[r] == c
    ensures forall k :: r < k < |s| ==> s[k] != c
    decreases |s|
  {
    if |s| == 0 then -1
    else if s[|s| - 1] == c then |s| - 1
    else LastIndexOf(s[..|s| - 1], c)
  }

  /**
   The `tcp=<host>:<port>` value reads back: the last ':' separates the port,
   and unbracketing the host gives the configured address.
   */
  lemma ListenEndpointRoundTrip(address: string, port: int)
    ensures var s := ListenHost(Some(address)) + ":" + IntToString(port);
            && LastIndexOf(s, ':') == |ListenHost(Some(address))|
            && s[..LastIndexOf(s, ':')] == ListenHost(Some(address))
            && s[LastIndexOf(s, ':') + 1..] == IntToString(port)
            && Unbracket(ListenHost(Some(address))) == address
  {
    var h := ListenHost(Some(address));
    var p := IntToString(port);
    var s := h + ":" + p;
    IntToStringFree(port, ':');
    assert s[|h|] == ':';
    assert forall k :: |h| < k < |s| ==> s[k] == p[k - |h| - 1];
    LastIndexIsLast(s, ':', |h|);
    assert s[..|h|] == h;
    assert s[|h| + 1..] == p;
    if ':' in address {
      assert h[1..|h| - 1] == address;
      assert ':' in h by {
        var j :| 0 <= j < |address| && address[j] == ':';
        assert h[j + 1] == ':';
      }
    }
  }

  lemma LastIndexIsLast(s: string, c: char, i: int)
    requires 0 <= i < |s| && s[i] == c
    requires forall k :: i < k < |s| ==> s[k] != c
    ensures LastIndexOf(s, c) == i
  {
  }

  /** The `-s` value of the framebuffer device. */
  function FbufToken(v: Video, host: string, port: int): string {
    NatToString(v.slot) + ":" + NatToString(v.func) + ",fbuf" + ",tcp=" + host + ":" + IntToString(port)
    + FbufOptions(v)
  }

  /** The optional `,w=<x>,h=<y>` and `,vga=<conf>` suffixes of the framebuffer token. */
  function FbufOptions(v: Video): (r: string)
    ensures r == "" || r[0] == ','
  {
    (match v.resolution
     case Some(res) => ",w=" + NatToString(res.x) + ",h=" + NatToString(res.y)
     case None => "")
    + (match v.vgaconf
       case Some(conf) => ",vga=" + conf
       case None => "")
  }

  /**
   The framebuffer token starts with the fields `<slot>:<func>`, `fbuf` and
   `tcp=<host>:<port>`: cutting it at the commas gives back the listen
   endpoint that `ListenEndpointRoundTrip` reads.
   */
  lemma FbufTokenFields(v: Video, address: Option<string>, port: int)
    requires address.None? || ',' !in address.value
    ensures var f := Split(FbufToken(v, ListenHost(address), port), ',');
            && |f| >= 3
            && f[0] == NatToString(v.slot) + ":" + NatToString(v.func)
            && f[1] == "fbuf"
            && f[2] == "tcp=" + ListenHost(address) + ":" + IntToString(port)
  {
    var host := ListenHost(address);
    var a := NatToString(v.slot) + ":" + NatToString(v.func);
    var t := "tcp=" + host + ":" + IntToString(port);
    var tail := FbufOptions(v);
    FbufTokenShape(a, host, IntToString(port), tail);
    SlotFuncFree(v.slot, v.func, ',');
    IntToStringFree(port, ',');
    ListenHostFree(address, ',');
    assert ',' !in t;
    SplitLeadingFields(a, "fbuf", t, tail, ',');
  }

  lemma FbufTokenShape(a: string, host: string, p: string, tail: string)
    ensures a + ",fbuf" + ",tcp=" + host + ":" + p + tail
            == a + [','] + ("fbuf" + [','] + (("tcp=" + host + ":" + p) + tail))
  {
    assert ",fbuf" + ",tcp=" == [','] + ("fbuf" + [','] + "tcp=");
  }

  lemma ListenHostFree(address: Option<string>, c: char)
    requires c != '[' && c != ']'
    requires address.None? || c !in address.value
    ensures c !in ListenHost(address)
  {
  }

  lemma SlotFuncFree(slot: nat, func: nat, c: char)
    requires !IsDigit(c) && c != ':'
    ensures c !in NatToString(slot) + ":" + NatToString(func)
  {
    assert forall k :: 0 <= k < |NatToString(slot)| ==> IsDigit(NatToString(slot)[k]);
    assert forall k :: 0 <= k < |NatToString(func)| ==> IsDigit(NatToString(func)[k]);
  }

  /** Graphics need a UEFI boot: the bootrom capability, no bootloader, a firmware path. */
  predicate UefiBoot(os: Os, caps: Caps) {
    caps.lpcBootrom && os.bootloader.None? && os.loader.Some?
  }

  predicate VncPortValid(g: Graphics) {
    g.autoport || (VncPortMin <= g.port <= VncPortMax)
  }

  /** Everything the graphics builder checks before it touches the port pool. */
  predicate GraphicsSupported(os: Os, g: Graphics, caps: Caps) {
    && UefiBoot(os, caps)
    && caps.fbuf
    && g.kind == Vnc
    && |g.listens| > 0
    && (g.listens[0].kind == AddressListen || g.listens[0].kind == NetworkListen)
    && VncPortValid(g)
    && !g.hasPassword
  }

  /** Whether the port pool, when consulted, yields a port. */
  predicate PortAvailable(g: Graphics, host: Host) {
    host.DryRun? || !g.autoport || host.vncPort.Some?
  }

  /** The framebuffer tokens and the VNC port left in the definition. */
  datatype GraphicsOutcome = GraphicsOutcome(args: Result<seq<string>>, port: int)

  /** `bhyveBuildGraphicsArgStr`. */
  function BuildGraphicsArg(os: Os, g: Graphics, v: Video, caps: Caps, host: Host): (o: GraphicsOutcome)
    ensures o.args.Ok? <==> GraphicsSupported(os, g, caps) && PortAvailable(g, host)
    ensures o.args.Ok? && !g.autoport ==> VncPortMin <= o.port <= VncPortMax
    ensures o.port == (if o.args.Ok? && host.Live? && g.autoport then host.vncPort.value else g.port)
    ensures o.args.Ok? ==> o.args.value == ["-s", FbufToken(v, ListenHost(g.listens[0].address), o.port)]
  {
    if !UefiBoot(os, caps) then GraphicsOutcome(Fail(GraphicsNeedUefi), g.port)
    else if !caps.fbuf then GraphicsOutcome(Fail(FramebufferUnsupported), g.port)
    else if g.kind != Vnc then GraphicsOutcome(Fail(GraphicsTypeUnsupported), g.port)
    else if |g.listens| == 0 then GraphicsOutcome(Fail(ListenMissing), g.port)
    else
      var listen := g.listens[0];
      match listen.kind
      case SocketListen => GraphicsOutcome(Fail(ListenTypeUnsupported), g.port)
      case NoListen => GraphicsOutcome(Fail(ListenTypeUnsupported), g.port)
      case _ =>
        if !VncPortValid(g) then GraphicsOutcome(Fail(VncPortOutOfRange), g.port)
        else if g.hasPassword then GraphicsOutcome(Fail(VncPasswordUnsupported), g.port)
        else if host.Live? && g.autoport && host.vncPort.None? then GraphicsOutcome(Fail(VncPortAcquireFailed), g.port)
        else
          var port := if host.Live? && g.autoport then host.vncPort.value else g.port;
          GraphicsOutcome(Ok(["-s", FbufToken(v, ListenHost(listen.address), port)]), port)
  }

  /* ---------------- sound (485-537) ---------------- */

  /** The `play=`/`rec=` parameters: the input device is played, the output device recorded. */
  function SoundParams(audio: Option<Audio>): string {
    match audio
    case None => ""
    case Some(OssAudio(inputDev, outputDev)) =>
      (if inputDev.Some? then ",play=" + inputDev.value else "")
      + (if outputDev.Some? then ",rec=" + outputDev.value else "")
  }

  /** `bhyveBuildSoundArgStr`. */
  function BuildSoundArg(s: Sound, caps: Caps): (r: Result<seq<string>>)
    ensures r.Ok? <==> caps.soundHda && s.model == Ich7
    ensures !caps.soundHda ==> r == Fail(SoundUnsupported)
    ensures r.Ok? ==> r.value == ["-s", NatToString(s.slot) + ":" + NatToString(s.func) + ",hda" + SoundParams(s.audio)]
  {
    if !caps.soundHda then Fail(SoundUnsupported)
    else if s.model != Ich7 then Fail(SoundModelUnsupported)
    else Ok(["-s", NatToString(s.slot) + ":" + NatToString(s.func) + ",hda" + SoundParams(s.audio)])
  }

  /**
   The backend's input device ends up as the `play=` parameter and its output
   device as `rec=`: the sub-options read back in that order.
   */
  lemma SoundDirectionsSwapped(inputDev: string, outputDev: string)
    requires ',' !in inputDev && ',' !in outputDev
    ensures Split(SoundParams(Some(OssAudio(Some(inputDev), Some(outputDev)))), ',')
            == ["", "play=" + inputDev, "rec=" + outputDev]
  {
    var parts := ["", "play=" + inputDev, "rec=" + outputDev];
    JoinThree("", "play=" + inputDev, "rec=" + outputDev, ',');
    assert SoundParams(Some(OssAudio(Some(inputDev), Some(outputDev)))) == "" + [','] + ("play=" + inputDev) + [','] + ("rec=" + outputDev);
    SplitJoin(parts, ',');
  }
}

=== FILE: domain.dfy ===
/**
 The parts of an already parsed and validated bhyve domain definition that
 command synthesis reads, the capability bits of the installed `bhyve` and
 `grub-bhyve` binaries, and the errors a build can end in.

 Every record is immutable. The two fields the C code writes back into the
 definition (a NIC's interface name and the VNC port) are returned by the
 builders as explicit outputs instead.
 */
module Domain {
  import opened Wrappers
  import opened Strings

  type uint32 = x: int | 0 <= x < 0x1_0000_0000
  type uint64 = x: int | 0 <= x < 0x1_0000_0000_0000_0000

  const UINT_MAX: uint32 := 0xFFFF_FFFF

  /* ---------------- results ---------------- */

  /**
   Why a builder gives up. Each constructor names one kind of failure, not
   one call site: the same message raised from several places shares a
   constructor (`DiskDeviceUnsupported`, `ConsoleTypeUnsupported`,
   `MultipleBootDevices`), and
   `NoUsableDisk`, `MissingArgument` and `VncPortAcquireFailed` stand for
   failures the builders return without reporting an error of their own.
   */
  datatype Error =
    // main composer
    | DiesUnsupported
    | TopologyMismatch
    | TopologyUnsupported
    | UtcClockUnsupported
    | ClockOffsetUnsupported(offset: ClockOffset)
    | BootromUnsupported
    // network
    | NicE1000Unsupported
    | NicModelUnsupported
    | NetTypeUnsupported
    | TapCreateFailed
    | TapNameLookupFailed
    | TapOnlineFailed
    // console
    | ConsoleTypeUnsupported
    | ConsolePortUnsupported
    // storage
    | DiskTypeUnsupported
    | DiskSourceUnresolved
    | CdromWithoutSource
    | DiskDeviceUnsupported
    // controllers
    | InputBusUnsupported
    | InputTypeUnsupported
    | InputCountUnsupported
    | PciModelUnsupported
    | SecondUsbController
    | SecondIsaController
    // graphics and sound
    | GraphicsNeedUefi
    | FramebufferUnsupported
    | GraphicsTypeUnsupported
    | ListenMissing
    | VncPortOutOfRange
    | VncPasswordUnsupported
    | ListenTypeUnsupported
    | VncPortAcquireFailed
    | MultipleGraphics
    | SoundUnsupported
    | SoundModelUnsupported
    // loaders and boot disk selection
    | BootloaderArgsRequired
    | NoDisks
    | MultipleBootDevices
    | BootDeviceUnsupported
    | BootDeviceNotFound
    | NoUsableDisk
    | MissingArgument

  datatype Result<+T> = Ok(value: T) | Fail(error: Error) {
    predicate IsFailure() {
      Fail?
    }

    function PropagateFailure<U>(): Result<U>
      requires Fail?
    {
      Fail(error)
    }

    function Extract(): T
      requires Ok?
    {
      value
    }
  }

  /** The tokens a builder result contributes: its value, or nothing for a failure. */
  function Tokens(r: Result<seq<string>>): seq<string> {
    if r.Ok? then r.value else []
  }

  /** The tokens of a run of builder results laid end to end, the last result's last. */
  function Emitted(rs: seq<Result<seq<string>>>): seq<string> {
    if |rs| == 0 then [] else Emitted(rs[..|rs| - 1]) + Tokens(rs[|rs| - 1])
  }

  lemma {:induction false} EmittedCons(x: Result<seq<string>>, rs: seq<Result<seq<string>>>)
    ensures Emitted([x] + rs) == Tokens(x) + Emitted(rs)
    decreases |rs|
  {
    var s := [x] + rs;
    if |rs| == 0 {
      assert s[..0] == [];
    } else {
      assert s[..|s| - 1] == [x] + rs[..|rs| - 1];
      EmittedCons(x, rs[..|rs| - 1]);
    }
  }

  /**
   Runs builders in order, appending what each emits, and stops at the first
   failure: the shape of every `if (build(...) < 0) goto error` loop.
   */
  function AppendAll(rs: seq<Result<seq<string>>>): (r: Result<seq<string>>)
    ensures r.Ok? <==> forall k :: 0 <= k < |rs| ==> rs[k].Ok?
    ensures r.Fail? ==> exists k :: 0 <= k < |rs| && rs[k] == Fail(r.error) && forall j :: 0 <= j < k ==> rs[j].Ok?
    ensures r.Ok? ==> r.value == Emitted(rs)
  {
    if |rs| == 0 then Ok([])
    else if rs[0].Fail? then Fail(rs[0].error)
    else
      var rest := AppendAll(rs[1..]);
      if rest.Fail? then
        assert forall k :: 1 <= k < |rs| ==> rs[k] == rs[1..][k - 1];
        Fail(rest.error)
      else
        assert forall k :: 1 <= k < |rs| ==> rs[k] == rs[1..][k - 1];
        assert rs == [rs[0]] + rs[1..];
        EmittedCons(rs[0], rs[1..]);
        Ok(rs[0].value + rest.value)
  }

  /** One external program invocation: the binary and its argument vector. */
  datatype Command = Command(program: string, args: seq<string>)

  /* ---------------- capabilities ---------------- */

  /** The `BHYVE_CAP_*` bits of the bhyve binary and the grub-bhyve console bit. */
  datatype Caps = Caps(
    rtcUtc: bool,
    ahci32Slot: bool,
    netE1000: bool,
    lpcBootrom: bool,
    fbuf: bool,
    soundHda: bool,
    cpuTopology: bool,
    grubConsDev: bool)

  /* ---------------- domain definition ---------------- */

  datatype Tristate = Absent | On | Off

  datatype CpuDef = CpuDef(sockets: uint32, dies: uint32, cores: uint32, threads: uint32)

  datatype ClockOffset = Utc | LocalTime | Variable | Timezone | Absolute

  /** `VIR_DOMAIN_CONTROLLER_TYPE_*`; the types the builder does not name are `OtherController`. */
  datatype ControllerType = PciController(isRoot: bool) | SataController | UsbController | IsaController | OtherController

  /** `idx` is the controller index SATA disks refer to; `slot`/`func` its PCI address. */
  datatype Controller = Controller(kind: ControllerType, idx: nat, slot: nat, func: nat)

  datatype DiskBus = SataBus | VirtioBus | OtherBus
  datatype DiskDevice = DiskDevice | CdromDevice | FloppyDevice | LunDevice
  datatype StorageType = FileStorage | VolumeStorage | OtherStorage

  /**
   A disk. `source` is the path after `virDomainDiskTranslateSourcePool`,
   and `resolves` says whether that translation succeeds. A SATA disk is
   addressed by `controller`, a virtio disk by its PCI `slot`.
   */
  datatype Disk = Disk(
    bus: DiskBus,
    device: DiskDevice,
    storage: StorageType,
    source: Option<string>,
    resolves: bool,
    controller: nat,
    slot: nat,
    bootIndex: uint32)

  datatype NetModel = VirtioNet | E1000Net | OtherNetModel
  datatype NetType = BridgeNet | OtherNetType

  /** A NIC; `mac` is the already formatted MAC address. */
  datatype Net = Net(
    model: NetModel,
    actualType: NetType,
    bridge: string,
    ifname: Option<string>,
    mac: string,
    slot: nat)

  datatype InputBus = UsbInput | OtherInputBus
  datatype InputType = Tablet | OtherInputType
  datatype Input = Input(bus: InputBus, kind: InputType)

  datatype GraphicsType = Vnc | OtherGraphics
  datatype ListenType = AddressListen | NetworkListen | SocketListen | NoListen
  datatype Listen = Listen(kind: ListenType, address: Option<string>)

  /** A VNC server; `port` is meaningful unless `autoport` is set. */
  datatype Graphics = Graphics(
    kind: GraphicsType,
    autoport: bool,
    port: int,
    hasPassword: bool,
    listens: seq<Listen>)

  datatype Resolution = Resolution(x: nat, y: nat)

  /** A video device; `vgaconf` is the already formatted VGA mode of its driver. */
  datatype Video = Video(slot: nat, func: nat, resolution: Option<Resolution>, vgaconf: Option<string>)

  /** The OSS audio backend paired with a sound device. */
  datatype Audio = OssAudio(inputDev: Option<string>, outputDev: Option<string>)

  datatype SoundModel = Ich7 | OtherSoundModel

  /** A sound device together with the audio backend found for it. */
  datatype Sound = Sound(model: SoundModel, slot: nat, func: nat, audio: Option<Audio>)

  datatype ChrType = NmdmChr | OtherChr

  datatype Serial = Serial(sourceType: ChrType, path: string, port: int)

  datatype BootDev = BootFloppy | BootCdrom | BootDisk | BootNetwork

  /**
   Boot configuration: `bootloader`/`bootloaderArgs` name an external loader,
   `loader` the UEFI firmware path, `bootDevs` the `<boot dev=…/>` list.
   */
  datatype Os = Os(
    bootloader: Option<string>,
    bootloaderArgs: Option<string>,
    loader: Option<string>,
    bootDevs: seq<BootDev>)

  datatype DomainDef = DomainDef(
    name: string,
    vcpus: uint32,
    cpu: Option<CpuDef>,
    memoryKiB: uint64,
    memLocked: bool,
    acpi: Tristate,
    apic: Tristate,
    msrs: Tristate,
    msrsUnknownIgnore: bool,
    clock: ClockOffset,
    os: Os,
    controllers: seq<Controller>,
    disks: seq<Disk>,
    nets: seq<Net>,
    inputs: seq<Input>,
    graphics: seq<Graphics>,
    videos: seq<Video>,
    sounds: seq<Sound>,
    serials: seq<Serial>,
    passthrough: Option<seq<string>>)

  /* ---------------- host resources ---------------- */

  /**
   What the host's tap-device calls report for one NIC: the interface name
   after creation (`None` when creation fails), the real device name found
   afterwards (`None` when the lookup fails), and whether bringing the link
   up succeeds.
   */
  datatype TapResponse = TapResponse(created: Option<string>, realName: Option<string>, online: bool)

  /**
   The resource provider the builders run against: `DryRun` touches nothing;
   `Live` answers the tap calls for the NIC at each position and hands out
   `vncPort` from the port pool (`None` when the pool is exhausted).
   */
  datatype Host = DryRun | Live(tap: nat -> TapResponse, vncPort: Option<int>)

  /* ---------------- shared helpers ---------------- */

  /** `%s` of a possibly NULL string in the glib printf family. */
  function Text(s: Option<string>): string {
    match s
    case Some(v) => v
    case None => "(null)"
  }

  const KIB_WRAP: int := 0x1_0000_0000_0000_0000

  /**
   `VIR_DIV_UP(kib, 1024)` on an unsigned 64-bit value: the least MiB count
   covering the KiB count, as long as `kib + 1023` does not wrap around.
   */
  function MemoryMiB(kib: uint64): (m: nat)
    ensures kib <= KIB_WRAP - 1024 ==> m * 1024 >= kib && (m == 0 || (m - 1) * 1024 < kib)
    ensures kib <= KIB_WRAP - 1024 && kib % 1024 == 0 ==> m * 1024 == kib
  {
    ((kib + 1023) % KIB_WRAP) / 1024
  }

  /** The memory size as the `-m` / `--memory` token. */
  function MemoryToken(def: DomainDef): string {
    NatToString(MemoryMiB(def.memoryKiB))
  }

  /** The last 1023 KiB values wrap around and round to zero MiB. */
  lemma MemoryWrapsAtTop(kib: uint64)
    requires kib > KIB_WRAP - 1024
    ensures MemoryMiB(kib) == 0
  {
  }
}

=== FILE: strings.dfy ===
/**
 The string plumbing the command builders rely on: decimal formatting of the
 `%d`/`%llu` conversions, substring search (`strstr`), and splitting and
 joining on a single separator character (`virStringSplit`, which follows
 `g_strsplit`).
 */
module Strings {
  import opened Wrappers

  /* ---------------- decimal formatting ---------------- */

  predicate IsDigit(c: char) {
    '0' <= c <= '9'
  }

  /** A non-empty run of decimal digits. */
  predicate IsDigits(s: string) {
    |s| >= 1 && forall k :: 0 <= k < |s| ==> IsDigit(s[k])
  }

  function DigitChar(d: nat): (c: char)
    requires d < 10
    ensures IsDigit(c)
  {
    (d + 48) as char
  }

  function DigitValue(c: char): (d: nat)
    requires IsDigit(c)
    ensures d < 10
  {
    (c as int) - 48
  }

  /** `%d` / `%u` / `%llu` of a non-negative value. */
  function NatToString(n: nat): (s: string)
    ensures IsDigits(s)
    ensures n < 10 <==> |s| == 1
    decreases n
  {
    if n < 10 then [DigitChar(n)] else NatToString(n / 10) + [DigitChar(n % 10)]
  }

  /** `%d` of a signed value. */
  function IntToString(i: int): (s: string)
    ensures |s| >= 1
    ensures i >= 0 <==> IsDigit(s[0])
  {
    if i < 0 then "-" + NatToString(-i) else NatToString(i)
  }

  /** Decimal text holds no character other than digits and the sign. */
  lemma IntToStringFree(i: int, c: char)
    requires !IsDigit(c) && c != '-'
    ensures c !in IntToString(i)
  {
    var s := IntToString(i);
    var n := if i < 0 then -i else i;
    var digits := NatToString(n);
    assert forall k :: 0 <= k < |digits| ==> IsDigit(digits[k]);
    if i < 0 {
      assert s == "-" + digits;
      assert forall k :: 1 <= k < |s| ==> s[k] == digits[k - 1];
    }
  }

  /** Reads back a run of decimal digits, most significant first. */
  function DigitsValue(s: string): nat
    requires forall k :: 0 <= k < |s| ==> IsDigit(s[k])
  {
    if |s| == 0 then 0 else DigitsValue(s[..|s| - 1]) * 10 + DigitValue(s[|s| - 1])
  }

  function ParseNat(s: string): Option<nat> {
    if IsDigits(s) then Some(DigitsValue(s)) else None
  }

  /** Decimal formatting loses nothing: the digits read back as the number. */
  lemma {:induction false} ParseNatToString(n: nat)
    ensures ParseNat(NatToString(n)) == Some(n)
    decreases n
  {
    var s := NatToString(n);
    if n < 10 {
      assert s == [DigitChar(n)];
      assert s[..|s| - 1] == [];
      assert DigitValue(s[0]) == n;
      assert DigitsValue(s) == DigitsValue([]) * 10 + n;
    } else {
      ParseNatToString(n / 10);
      var prefix := NatToString(n / 10);
      assert s[..|s| - 1] == prefix;
      assert DigitValue(s[|s| - 1]) == n % 10;
    }
  }

  lemma NatToStringInjective(m: nat, n: nat)
    requires NatToString(m) == NatToString(n)
    ensures m == n
  {
    ParseNatToString(m);
    ParseNatToString(n);
  }

  /* ---------------- substring search ---------------- */

  predicate OccursAt(s: string, sub: string, i: int) {
    0 <= i && i + |sub| <= |s| && s[i..i + |sub|] == sub
  }

  /** `strstr(s, sub) != NULL`. */
  function Contains(s: string, sub: string): bool
    decreases |s|
  {
    sub <= s || (|s| > 0 && Contains(s[1..], sub))
  }

  /** The scan finds an occurrence exactly when there is one. */
  lemma ContainsIffOccurs(s: string, sub: string)
    ensures Contains(s, sub) <==> exists i :: OccursAt(s, sub, i)
  {
    if Contains(s, sub) {
      var i := ContainsWitness(s, sub);
    }
    if exists i :: OccursAt(s, sub, i) {
      var i :| OccursAt(s, sub, i);
      OccursContains(s, sub, i);
    }
  }

  /** Where the scan's success comes from: a position of an occurrence. */
  lemma {:induction false} ContainsWitness(s: string, sub: string) returns (i: int)
    requires Contains(s, sub)
    ensures OccursAt(s, sub, i)
    decreases |s|
  {
    if sub <= s {
      i := 0;
    } else {
      var j := ContainsWitness(s[1..], sub);
      assert s[1..][j..j + |sub|] == s[j + 1..j + 1 + |sub|];
      i := j + 1;
    }
  }

  lemma {:induction false} OccursContains(s: string, sub: string, i: int)
    requires OccursAt(s, sub, i)
    ensures Contains(s, sub)
    decreases i
  {
    if i > 0 {
      assert s[1..][i - 1..i - 1 + |sub|] == s[i..i + |sub|];
      OccursContains(s[1..], sub, i - 1);
    }
  }

  /* ---------------- split and join ---------------- */

  /** Joins the parts with one separator between neighbours. */
  function Join(parts: seq<string>, sep: char): string {
    if |parts| == 0 then ""
    else if |parts| == 1 then parts[0]
    else parts[0] + [sep] + Join(parts[1..], sep)
  }

  /** Concatenates the parts with nothing between them. */
  function Concat(parts: seq<string>): string {
    if |parts| == 0 then "" else parts[0] + Concat(parts[1..])
  }

  /** Cuts at every separator; a string always yields at least one piece. */
  function SplitPieces(s: string, sep: char): (r: seq<string>)
    ensures |r| >= 1
    decreases |s|
  {
    if |s| == 0 then [""]
    else
      var rest := SplitPieces(s[1..], sep);
      if s[0] == sep then [""] + rest
      else [[s[0]] + rest[0]] + rest[1..]
  }

  /**
   `virStringSplit(s, sep, 0)`: the empty string has no tokens, any other
   string is cut at every separator (so neighbouring separators give empty
   tokens).
   */
  function Split(s: string, sep: char): (r: seq<string>)
    ensures forall k :: 0 <= k < |r| ==> sep !in r[k]
    ensures s == "" <==> r == []
  {
    SplitPiecesFree(s, sep);
    if s == "" then [] else SplitPieces(s, sep)
  }

  lemma {:induction false} SplitPiecesFree(s: string, sep: char)
    ensures forall k :: 0 <= k < |SplitPieces(s, sep)| ==> sep !in SplitPieces(s, sep)[k]
    decreases |s|
  {
    if |s| > 0 {
      SplitPiecesFree(s[1..], sep);
    }
  }

  lemma {:induction false} JoinSplitPieces(s: string, sep: char)
    ensures Join(SplitPieces(s, sep), sep) == s
    decreases |s|
  {
    if |s| > 0 {
      var rest := SplitPieces(s[1..], sep);
      JoinSplitPieces(s[1..], sep);
      if s[0] == sep {
        assert SplitPieces(s, sep) == [""] + rest;
        assert ([""] + rest)[1..] == rest;
        assert [s[0]] + s[1..] == s;
      } else {
        var r := [[s[0]] + rest[0]] + rest[1..];
        assert SplitPieces(s, sep) == r;
        if |rest| == 1 {
          assert Join(r, sep) == [s[0]] + rest[0];
        } else {
          assert r[1..] == rest[1..];
          assert Join(rest, sep) == rest[0] + [sep] + Join(rest[1..], sep);
        }
        assert [s[0]] + s[1..] == s;
      }
    }
  }

  /** Splitting then joining gives back the original string. */
  lemma JoinSplit(s: string, sep: char)
    ensures Join(Split(s, sep), sep) == s
  {
    if s != "" {
      JoinSplitPieces(s, sep);
    }
  }

  lemma {:induction false} SplitPiecesFreePart(p: string, sep: char)
    requires sep !in p
    ensures SplitPieces(p, sep) == [p]
    decreases |p|
  {
    if |p| > 0 {
      SplitPiecesFreePart(p[1..], sep);
      assert [p[0]] + p[1..] == p;
    }
  }

  lemma {:induction false} SplitPiecesPrefix(p: string, sep: char, tail: string)
    requires sep !in p
    ensures SplitPieces(p + [sep] + tail, sep) == [p] + SplitPieces(tail, sep)
    decreases |p|
  {
    var s := p + [sep] + tail;
    if |p| == 0 {
      assert s[0] == sep && s[1..] == tail;
    } else {
      assert s[0] == p[0];
      assert s[1..] == p[1..] + [sep] + tail;
      SplitPiecesPrefix(p[1..], sep, tail);
      assert [p[0]] + p[1..] == p;
    }
  }

  lemma {:induction false} SplitPiecesJoin(parts: seq<string>, sep: char)
    requires |parts| >= 1
    requires forall k :: 0 <= k < |parts| ==> sep !in parts[k]
    ensures SplitPieces(Join(parts, sep), sep) == parts
    decreases |parts|
  {
    if |parts| == 1 {
      SplitPiecesFreePart(parts[0], sep);
    } else {
      SplitPiecesPrefix(parts[0], sep, Join(parts[1..], sep));
      SplitPiecesJoin(parts[1..], sep);
    }
  }

  lemma JoinThree(a: string, b: string, c: string, sep: char)
    ensures Join([a, b, c], sep) == a + [sep] + b + [sep] + c
  {
    assert [a, b, c][1..] == [b, c];
    assert [b, c][1..] == [c];
    assert Join([c], sep) == c;
    assert Join([b, c], sep) == b + [sep] + c;
    assert Join([a, b, c], sep) == a + [sep] + (b + [sep] + c);
  }

  /**
   Three separator-free fields followed by nothing or by a separator and
   more: splitting gives back the three fields first.
   */
  lemma SplitLeadingFields(a: string, b: string, c: string, tail: string, sep: char)
    requires sep !in a && sep !in b && sep !in c
    requires tail == "" || tail[0] == sep
    ensures var f := Split(a + [sep] + (b + [sep] + (c + tail)), sep);
            |f| >= 3 && f[0] == a && f[1] == b && f[2] == c
  {
    var s := a + [sep] + (b + [sep] + (c + tail));
    assert s != "";
    SplitPiecesPrefix(a, sep, b + [sep] + (c + tail));
    SplitPiecesPrefix(b, sep, c + tail);
    if tail == "" {
      assert c + tail == c;
      SplitPiecesFreePart(c, sep);
    } else {
      assert c + tail == c + [sep] + tail[1..];
      SplitPiecesPrefix(c, sep, tail[1..]);
    }
  }

  /** Joining separator-free parts and splitting again gives back the parts. */
  lemma SplitJoin(parts: seq<string>, sep: char)
    requires forall k :: 0 <= k < |parts| ==> sep !in parts[k]
    requires parts != [""]
    ensures Split(Join(parts, sep), sep) == parts
  {
    if |parts| > 0 {
      SplitPiecesJoin(parts, sep);
    }
  }
}

=== FILE: wrappers.dfy ===
/** The optional value every module of the model shares. */
module Wrappers {

  datatype Option<+T> = None | Some(value: T)
}
